=== FILE: README.md ===
# linked-alert-app Android client, modelled in Dafny

The Android client of linked-alert-app listens on a TCP port for JSON
messages from the alert server and reacts to them.
- An `alert` message, or a `command` whose command is `alert`, starts an
  alarm session. The session shows a floating window and runs a flashing and
  a sound loop in background threads. It vibrates, posts a notification and
  sends an `alert_ack` back.
- `stop_alert` ends the session and sends a `stop_alert_ack`.
- `beep`, `vibrate` and `flash` drive one actuator each.
- Every dict with a `type` key is answered with `{"status": "ok", "message": "已处理"}`,
  except a `beep`, `vibrate` or `flash` command whose `params` is not a dict
  (see below).

Besides the app in `main.py`, the client ships two reusable components:
- `ResponseHandler` (`response_handler.py`) maps a message's type, alert
  level or command to sound, vibration, screen-flash and display actions. On
  Android it runs them as background tone and vibration schedules.
- `NetworkManager` (`network.py`) is a listener. It tags every decoded object
  with its sender's address, hands it to a callback and answers it. Its
  start, stop and accept lifecycle is a small flag state machine.

The model is a set of pure transition functions over immutable state. Each
returns the new state together with the ordered trace of its side effects:
socket writes, thread spawns, actuator calls and callback notices.

| file | module | models |
|---|---|---|
| `json.dfy` | `Json` | finite JSON values as Python's `json` module returns them (int and float distinct, floats as exact decimals; `NaN` and `Infinity` are not represented), `dict.get` on dicts and on non-dicts, `int(duration * 1000)`, `range(n)`, and the three outcomes of decoding a chunk: JSON, UTF-8 text that is not JSON, and bytes that are not UTF-8 |
| `alert_session.dfy` | `AlertSession` | `start_alert`, `stop_alert`, the acknowledgements, and one step of the `_flash_loop` / `_sound_loop` threads |
| `alert_app.dfy` | `AlertApp` | `execute_command`, `process_data` and `handle_client` of `main.py` |
| `response_planner.dfy` | `ResponsePlanner` | `handle_message`, `handle_alert`, `handle_command`, and the Android schedules of `play_sound` / `vibrate` |
| `network.dfy` | `Network` | `NetworkManager.handle_client`, `start_server`, `stop_server`, `accept_connections`, and the dictionaries handed to the callback |

Where the code and its documented behaviour differ, the model follows the code:
- **Unanswered commands with bad params.** A `beep`, `vibrate` or `flash`
  command whose `params` is not a dict gets no ok response. This includes an
  explicit `null`. `execute_command` has no `try`, so `params.get` raises
  into `process_data`'s generic handler before the response is written.
  An `alert` with such params is still answered: `start_alert` catches its
  own error. By then the session is already active and its stop event
  renewed, but nothing has been shown, spawned or acknowledged.
- **Loops read the current stop event.** The loop threads read
  `self.alert_stop_event` each time round, not the event that existed when
  they started. A restart therefore does not stop the earlier sound loop. It
  spawns another one, so sound loops accumulate
  (`AlertSession.RestartKeepsLatestSource`).
- **`execute_command`'s alert and stop_alert branches are dead.**
  `process_data` routes those two commands to `start_alert` / `stop_alert`
  itself. `main.py`'s own `handle_command` is never called.
- **The floating-window removal in `stop_alert` is dead.** `floating_window`
  is only ever set by the first `show_floating_window`, which a later
  definition of the same name shadows.

## Model

| member | source | states |
|---|---|---|
| Json.PyGet | android_client/files/response_handler.py:52-53 | `.get` succeeds exactly on a dict, returning the stored value or the default; on anything else it raises |
| Json.Millis | android_client/files/response_handler.py:133 | `int(duration * 1000)` is defined exactly for ints, bools and floats: ints scale by 1000, bools give 1000 or 0, and a float gives its exact thousandfold value truncated toward zero |
| Json.MillisOfHalf | android_client/files/response_handler.py:64-72 | the half-second durations of the warning and info plans become 500 ms; the same lemma gives 200 ms for the 0.2 s pause of `vibrate_device` (line 184) |
| Json.RangeCount | android_client/files/response_handler.py:131 | `range(repeat)` accepts ints and bools only and runs max(repeat, 0) times for an int, once for `True` and never for `False` |
| AlertSession.Body | android_client/files/main.py:325 | the ok response serialises as {status: ok, message: 已处理}, alert_ack as {type: alert_ack, message: 警报已启动} and stop_alert_ack as {type: stop_alert_ack, message: 警报已停止} (lines 325, 406 and 416), each exactly those two fields |
| AlertSession.Guard | android_client/files/main.py:823 | the condition both loops test before each iteration (lines 823 and 841): the stop event unset and the alert active |
| AlertSession.InitConsistent | android_client/files/main.py:123-127 | the initial session (inactive, no sound, an unset stop event, no source) satisfies the session invariant |
| AlertSession.Ack | android_client/files/main.py:402-420 | an acknowledgement is one write of that message on the recorded socket, or nothing when no socket is recorded |
| AlertSession.StartActions | android_client/files/main.py:708-738 | start_alert's middle part writes nothing; it spawns a sound loop, shows the window, vibrates once with the default duration, posts the notification, and spawns one flash loop exactly when none is alive |
| AlertSession.StartSpawnsOnce | android_client/files/main.py:726-735 | one start_alert never spawns two sound loops or two flash loops, and never vibrates twice |
| AlertSession.StartAlert | android_client/files/main.py:694-744 | start_alert always leaves the session active with a fresh, unset stop event (the old one is set first). With dict or null params it records the source (default "unknown"), shows and notifies the message (default "收到警报！"), adds one sound loop, and writes exactly one alert_ack when a client socket is recorded. With other params it stops right after renewing the event, with no ack |
| AlertSession.StopActions | android_client/files/main.py:752-795 | stop_alert's middle part writes nothing; it sets the stop event first, stops the sound exactly when a handle is held, and switches the flash light off, stops the ringtone, cancels the vibration and cancels the notification each exactly on Android |
| AlertSession.StartAlertPerforms | android_client/files/main.py:694-744 | with dict or null params, start_alert's trace is exactly its middle part for the params' message followed by the acknowledgement, so it includes the one default vibration (line 735) |
| AlertSession.StopAlertPerforms | android_client/files/main.py:746-818 | on an active session, stop_alert's trace is exactly its middle part followed by the acknowledgement, so on Android and only there it switches the flash off, stops the ringtone, cancels the vibration and cancels the notification (lines 767, 774, 781 and 788) |
| AlertSession.StopAlert | android_client/files/main.py:746-818 | an inactive session is left alone with no effect. An active one is made inactive with its stop event set and its sound handle dropped, and exactly one stop_alert_ack is written when a client socket is recorded. Afterwards the loop guard is false either way |
| AlertSession.StopIdempotent | android_client/files/main.py:746-818 | a second stop_alert right after a first changes nothing and does nothing |
| AlertSession.RestartKeepsLatestSource | android_client/files/main.py:708-732 | two starts leave the second source recorded; the second start spawns no second flash loop, but a second sound loop is running |
| AlertSession.FlashStep | android_client/files/main.py:820-836 | a flash iteration touches only its own liveness; it ends the thread when the guard fails; while the guard holds, a live thread toggles the light on and off on Android and does nothing else elsewhere, and no other step toggles it |
| AlertSession.SoundStep | android_client/files/main.py:838-847 | at the guard, a sound thread plays two seconds of sound (updating the handle as play_sound does) when the guard holds and ends silently when it fails; after playing it ends if the stop event is set and otherwise returns to the guard; it plays nowhere else, and once the stop event is set its next step ends it silently |
| AlertSession.HaltedLoopsAreSilent | android_client/files/main.py:820-847 | with the guard false, any schedule of loop steps makes no actuator call, adds no thread, keeps the guard false, and ends a stepped flash thread |
| AlertSession.FlashFlagStaysDown | android_client/files/main.py:820-836 | loop steps never bring a dead flash thread back |
| AlertSession.StopHaltsEachLoop | android_client/files/main.py:820-847 | right after stop_alert, the flash thread's and every sound thread's next step end them with no effect |
| AlertSession.StartKeepsConsistent | android_client/files/main.py:705-711 | after start_alert the loop guard holds exactly while the session is active |
| AlertSession.StopKeepsConsistent | android_client/files/main.py:749-754 | stop_alert preserves the session invariant |
| AlertSession.LoopsKeepConsistent | android_client/files/main.py:820-847 | every interleaving of loop steps preserves the session invariant |
| AlertSession.RunLoops | android_client/files/main.py:820-847 | running the loop threads under any schedule keeps the acknowledgement socket and the source, and never writes or closes a socket |
| AlertSession.LoopsKeepFlags | android_client/files/main.py:820-847 | loop threads never change the active flag or the stop event |
| AlertApp.ExecuteCommand | android_client/files/main.py:370-400 | execute_command raises exactly for beep, vibrate or flash with non-dict params; otherwise it drives exactly one actuator for those three and nothing for other commands, writes nothing, and changes at most the sound handle (only for beep) |
| AlertApp.ExecuteCommandDefaults | android_client/files/main.py:375-389 | a beep or vibration lasts params' duration (default 1 s); a flash blinks params' count times (default 3) |
| AlertApp.Transition | android_client/files/main.py:308-322 | an alert route performs start_alert with its params, stop_alert performs stop_alert, a command route performs execute_command with its command and params, and an answer-only route changes nothing and does nothing; each writes only the route's acknowledgement on the recorded socket and keeps the session invariant |
| AlertApp.ThenRespond | android_client/files/main.py:324-326 | the ok response is the last write and adds exactly one ok response to the writes |
| AlertApp.Dispatch | android_client/files/main.py:307-326 | a routed message ends with the ok response on the recorded socket, preceded by exactly the route's acknowledgement; unanswered messages have no effect |
| AlertApp.RouteOf | android_client/files/main.py:307-322 | every route a message can take is one process_data can dispatch, and a message is left unanswered exactly when it is not answered |
| AlertApp.ProcessDataPerforms | android_client/files/main.py:293-322 | once a decoded message has recorded its socket, process_data leaves the session exactly as start_alert, stop_alert or execute_command leaves it for the message's route, and unchanged for answer-only and unanswered messages |
| AlertApp.ProcessData | android_client/files/main.py:293-338 | undecodable or non-JSON data changes nothing; any decoded value makes its socket the acknowledgement socket; writes go only to that socket and nothing is closed |
| AlertApp.AnsweredIffRouted | android_client/files/main.py:307-326 | a message is answered exactly when it is a dict with a type key and not an actuator command with non-dict params |
| AlertApp.ProcessDataAnswersOnce | android_client/files/main.py:293-338 | exactly one ok response for an answered message and none otherwise; when written, it is process_data's last effect |
| AlertApp.DispatchedWrites | android_client/files/main.py:307-326 | an answered message's writes are its route's acknowledgement, then the ok response |
| AlertApp.StartAckPrecedesResponse | android_client/files/main.py:309-326 | an alert writes alert_ack before the ok response when its params are a dict or null, and only the response otherwise |
| AlertApp.StopAckPrecedesResponse | android_client/files/main.py:319-326 | stop_alert writes stop_alert_ack before the ok response when an alert was active, and only the response otherwise |
| AlertApp.Routing | android_client/files/main.py:307-321 | the alert type and the alert command both start with params (default {}); stop_alert stops; other types are only answered; every other command goes to execute_command with its command and params, except that an actuator command with non-dict params is unanswered; conversely every execute_command route comes from such a command message |
| AlertApp.StartedState | android_client/files/main.py:705-719 | a message routed to start_alert with dict params leaves the session active with the source those params name (default "unknown") |
| AlertApp.FireAlertStarts | android_client/files/main.py:293-326 | an alert command from node-1 activates an idle session with that source and writes alert_ack then the response |
| AlertApp.StopCommandStops | android_client/files/main.py:293-326 | stop_alert on an active session idles it and writes stop_alert_ack then the response |
| AlertApp.AlertThenStopScenario | android_client/files/main.py:293-338 | the alert then the stop on one connection give exactly those two exchanges |
| AlertApp.HandleClient | android_client/files/main.py:279-291 | handle_client feeds chunks to process_data while listening and then closes the socket; its guarantees are the three lemmas below |
| AlertApp.HandleClientCloses | android_client/files/main.py:279-291 | whatever a connection sends, its socket is closed exactly once, as the last effect, and nothing is written to another socket |
| AlertApp.HandleClientAnswers | android_client/files/main.py:279-291 | a connection gets exactly one ok response per answered chunk |
| AlertApp.HandleClientConsistent | android_client/files/main.py:279-291 | a connection keeps the session invariant |
| ResponsePlanner.SourceIp | android_client/files/response_handler.py:52-53 | the sender's ip lookup succeeds unless a source is present and is not a dict; it gives the source's ip, or "unknown" when the source or its ip is absent |
| ResponsePlanner.LevelPlan | android_client/files/response_handler.py:58-72 | every planned action is an actuator action; a level other than critical, warning and info plans nothing |
| ResponsePlanner.HandleAlert | android_client/files/response_handler.py:43-72 | an alert raises exactly when its source is not a dict; otherwise it logs level, ip and content (defaults info and 未指定内容), then runs its level's plan |
| ResponsePlanner.CommandAction | android_client/files/response_handler.py:88-106 | a command raises exactly when it is beep, vibrate, flash or display and params is not a dict; otherwise exactly those four act, and any other command only logs "unknown command" |
| ResponsePlanner.HandleCommand | android_client/files/response_handler.py:74-106 | a command raises exactly when its source is not a dict (before anything is logged) or when it is a known command with non-dict params; otherwise the command line is logged first and the one action that follows is the command's action with the message's params, driving an actuator exactly for a known command |
| ResponsePlanner.HandleMessage | android_client/files/response_handler.py:16-41 | a value that is not a dict is logged as invalid |
| ResponsePlanner.OnlyAlertsAndCommandsAct | android_client/files/response_handler.py:16-41 | only alert and command messages can drive an actuator |
| ResponsePlanner.TypeDispatch | android_client/files/response_handler.py:16-41 | alerts go to handle_alert and commands to handle_command; system types log their message (default 系统消息); other types log the sender's ip (default unknown), or raise when the source is not a dict |
| ResponsePlanner.AlertDefaults | android_client/files/response_handler.py:50-72 | a bare alert logs the defaults and runs the info plan |
| ResponsePlanner.CommandDefaults | android_client/files/response_handler.py:88-104 | for any params dict, each parameter given is used as is and each missing one takes its default: 1 s and once, 3 red flashes, empty text for 5 s |
| ResponsePlanner.IterationsCount | android_client/files/response_handler.py:131-136 | k loop iterations contain k times what one iteration contains |
| ResponsePlanner.IterationsEndWithGap | android_client/files/response_handler.py:131-136 | with a gap, the iterations end with the gap |
| ResponsePlanner.IterationsSteps | android_client/files/response_handler.py:131-136 | every step is the pulse, its hold or the gap |
| ResponsePlanner.PulseTrain | android_client/files/response_handler.py:131-136 | n iterations give n pulses, and n gaps exactly when n > 1, with a gap last |
| ResponsePlanner.ToneSchedule | android_client/files/response_handler.py:130-137 | play_sound's thread raises before any tone for a repeat that is not an int or bool, and for a duration without a numeric value when a tone is due; a repeat of zero or less only releases the generator; every schedule ends with the release, except that a negative duration ends it after one tone |
| ResponsePlanner.BuzzSchedule | android_client/files/response_handler.py:179-184 | vibrate's thread raises before any vibration for a repeat that is not an int or bool, and for a duration without a numeric value when a vibration is due; a repeat of zero or less does nothing; a negative duration ends it after one vibration |
| ResponsePlanner.ToneScheduleUnfold | android_client/files/response_handler.py:130-137 | a non-negative numeric duration and any repeat range() runs n >= 1 times (an int n, or True for n = 1) give n iterations followed by the release |
| ResponsePlanner.ReleasedTrain | android_client/files/response_handler.py:130-137 | the tone train has n tones of equal length and n gaps exactly when n > 1, and releases the generator last |
| ResponsePlanner.ToneScheduleShape | android_client/files/response_handler.py:130-137 | play_sound on Android, for any repeat range() runs n >= 1 times, plays exactly n tones, all of int(duration*1000) ms; a 0.5 s gap follows each exactly when n > 1 (so never for True); the generator is released last |
| ResponsePlanner.BuzzScheduleUnfold | android_client/files/response_handler.py:179-184 | the vibration thread runs n iterations for any repeat range() runs n >= 1 times |
| ResponsePlanner.BuzzScheduleShape | android_client/files/response_handler.py:179-184 | vibrate on Android, for any repeat range() runs n >= 1 times, vibrates exactly n times, all of int(duration*1000) ms; a 0.2 s gap follows each exactly when n > 1 (so never for True) |
| ResponsePlanner.NegativeDurationStopsEarly | android_client/files/response_handler.py:130-137 | a negative duration makes the first sleep raise: one tone that is never released, or one vibration |
| ResponsePlanner.NonPositiveRepeatIsSilent | android_client/files/response_handler.py:130-137 | a repeat of zero or less, or False, plays nothing; the tone generator is still released |
| ResponsePlanner.CriticalSchedules | android_client/files/response_handler.py:59-63 | critical plans a 3 s sound three times, then a 1 s vibration three times, then five red flashes; the sound plays three 3 s tones each followed by 0.5 s and the vibration buzzes three times for 1 s |
| ResponsePlanner.WarningSchedules | android_client/files/response_handler.py:64-68 | warning plans a 1 s sound twice, then a 0.5 s vibration twice, then three orange flashes; the sound plays two 1 s tones and the vibration buzzes twice for 0.5 s, each followed by 0.2 s |
| ResponsePlanner.InfoSchedules | android_client/files/response_handler.py:69-72 | info plans a 0.5 s sound once, then two blue flashes, and no vibration; the sound is one 0.5 s tone with no gap, then the release |
| Network.SourceOf | android_client/files/network.py:110-113 | the source is a dict of exactly ip and port |
| Network.Decimal | android_client/files/network.py:84 | the port is printed as a non-empty string of digits |
| Network.DecimalRoundTrip | android_client/files/network.py:84 | the printed port reads back as the port |
| Network.Render | android_client/files/network.py:98-153 | every callback argument is a dict. A delivered message carries the peer's address as its source. raw_data carries the received text and the source; a data error carries type error, the error prefix and the source; a start failure carries type error and its prefix; connection and disconnection carry "ip:port" in their fixed texts; a stop carries type info and 服务已停止 |
| Network.DeliveredKeepsFields | android_client/files/network.py:107-117 | a delivered message has the sender's source replaced by the peer's address and every other field unchanged |
| Network.ChunkEffects | android_client/files/network.py:105-144 | a chunk produces one to three notices or replies, all about its own peer: non-JSON text gives exactly one raw_data notice with that text; a non-object value or undecodable bytes give exactly one error notice; an object is delivered and then answered |
| Network.HandleClient | android_client/files/network.py:90-153 | every connection ends with its socket closed, then one disconnection notice |
| Network.Expected | android_client/files/network.py:105-144 | the per-chunk account of notices: at most one of each kind, and never a close, a connection or a disconnection notice |
| Network.ChunkTally | android_client/files/network.py:105-144 | per chunk: an object gets one delivery and one reply, plus an error notice if the reply fails; non-JSON text gets one raw_data notice; anything else gets one error notice |
| Network.HandleClientTally | android_client/files/network.py:90-153 | per connection, deliveries, replies, raw_data and error notices add up chunk by chunk, with exactly one close and one disconnection |
| Network.HandleClientPeers | android_client/files/network.py:90-153 | every notice a connection raises names that connection's peer |
| Network.ObjectChunkOrder | android_client/files/network.py:107-121 | an object reaches the callback before its reply; a failed reply is reported right after |
| Network.FreshConsistent | android_client/files/network.py:15-18 | a new network manager (no socket, not listening, no handlers) satisfies the listener invariant |
| Network.StartServer | android_client/files/network.py:20-49 | start_server returns true exactly when everything succeeds, then listening with one accept thread more; a failure returns false with one error notice and no new accept thread. A failed socket creation changes nothing; a failed bind or listen keeps the created socket (stored at line 33 before binding), so a later stop_server closes it and emits the stop notice; a failed thread start keeps the socket and leaves the listening flag raised (line 38 runs before the thread starts at line 43) |
| Network.FailedStartKeepsAccepting | android_client/files/network.py:38-88 | after a start whose accept thread failed, an accept thread left from an earlier start still accepts and announces connections, although start_server returned false |
| Network.StopServer | android_client/files/network.py:51-62 | with a socket, stop_server clears socket, flag and handlers, closes the listener and emits one info notice; without one it does nothing |
| Network.AcceptStep | android_client/files/network.py:64-88 | an accept iteration records and announces the peer exactly when listening and accepted; otherwise the accept thread ends |
| Network.ListenerStep | android_client/files/network.py:20-88 | each operation keeps listening implied by a socket, and no socket implies no handlers |
| Network.RunListener | android_client/files/network.py:20-88 | any interleaving of operations keeps that invariant |
| Network.StepConnections | android_client/files/network.py:64-88 | short of a stop, a step only appends handlers, one per connection notice |
| Network.HandlersMatchConnections | android_client/files/network.py:64-88 | until a stop, the handler list grows by exactly the announced connections, keeping earlier entries |
| Network.StoppedStep | android_client/files/network.py:51-88 | a stopped listener's step announces no connection and stays stopped unless it is a start that raises the flag (a successful one, or one whose thread fails to start) |
| Network.StoppedStaysSilent | android_client/files/network.py:51-88 | a stopped listener announces no connection until a start raises the flag again |
| Network.StartStopStop | android_client/files/network.py:31-62 | start then stop returns to no socket, no flag and no handlers; a second stop does nothing |
| Network.NoticesReachResponder | android_client/files/response_handler.py:16-41 | with handle_message as the callback, the listener's own notices are only logged, and a forwarded message can only raise when it is a command |

## Left out

- Logging, UI labels, `Clock.schedule_once`, the status label and text
  rendering of log lines: they do not affect state or the wire. The response
  handler's log lines are modelled by kind and by their deciding fields
  only: the command line records the command and the sender's ip but not
  the params it prints (response_handler.py:86), and the unknown-type line
  records the sender's ip but not the whole message it prints
  (response_handler.py:41).
- Concurrency: interleavings are modelled at the granularity of one
  operation or one loop iteration. Races inside an iteration are not
  modelled, for example an accept that completes while `stop_server` runs.
  The threads' sleeps are not timed.
- Exception texts: error notices carry the fixed prefix only, without
  `str(e)`. A failing acknowledgement or response send is modelled as an
  attempted write.
- Json.Millis: `Infinity`, `-Infinity` and `NaN`, which Python's `json`
  accepts, are not representable. A float too large for a double is
  treated as its exact decimal. Python turns it into infinity, and
  `int(inf)` raises `OverflowError`. Alert durations are small numbers, so
  the model leaves this out.
- Floats are exact decimals. Binary rounding of `duration * 1000` is not
  modelled, and a `Hold` step records the truncated milliseconds rather
  than the exact float sleep.
- Json.Millis: a digit-only string duration is treated as raising. In
  Python `"2" * 1000` is a longer digit string that `int()` accepts; the
  later `time.sleep` then raises, after a tone whose length the Android
  bridge decides.
- ResponsePlanner.ToneSchedule and ResponsePlanner.BuzzSchedule: the
  millisecond count is an unbounded integer. The 32-bit Java `int` that
  `startTone` and `vibrate` receive is not modelled, because a duration
  long enough to overflow it is far beyond any alert the handler issues.
- The Android calls (`ToneGenerator`, `Vibrator`, `droid.*`), the Kivy
  sound loader and the Windows `winsound` path are foreign code. They
  appear as effects. What `play_sound` does to the sound handle is an input.
- AlertSession.FlashStep: a failing `toggleFlashLight` that ends the flash
  loop (`except: break`) is not modelled. The loop ends only through its
  guard.
- `main.py`'s own accept loop, `start_service` / `stop_service`, the
  floating-window construction, `on_pause` / `on_resume`, the
  notification and flash helpers' internals, and `NetworkManager.send_message`
  are outside the modelled core.
- Network callbacks: the listener is modelled with a callback registered.
  The `if self.callback` guards that skip every notice when it is `None` are
  not modelled, and neither is an exception raised by the callback itself.
- AlertApp.ExecuteCommand: the alert and stop_alert branches are excluded by
  its precondition, because `process_data` routes those commands itself and
  nothing else calls `execute_command`.
- AlertSession.StopAlert: the removal of the floating window is not
  modelled. That branch can never run, because `floating_window` is never
  set.

=== FILE: alert_app.dfy ===
/**
 The listener side of main.py: process_data, which routes one decoded chunk
 to the alert session or to execute_command and writes the ok response, and
 handle_client, which runs process_data over the chunks of one connection
 and closes it.
 */
module AlertApp {
  import opened Json
  import opened AlertSession

  /** One chunk read by handle_client, with what play_sound would do to the
      sound handle if the chunk turns out to be a beep command. */
  datatype Chunk = Chunk(payload: DecodeResult, play: PlayOutcome)

  /** The commands execute_command drives an actuator for. */
  predicate IsActuatorCommand(command: Json)
  {
    command == JStr("beep") || command == JStr("vibrate") || command == JStr("flash")
  }

  /** execute_command(command, params) for the commands process_data sends
      there (its alert and stop_alert branches are unreachable from
      process_data, which routes those two commands itself). None means that
      params.get raised because params is not a dict; the exception leaves
      execute_command before any actuator call. */
  function ExecuteCommand(s: Session, command: Json, params: Json, play: PlayOutcome)
    : (r: Option<(Session, seq<Effect>)>)
    requires command != JStr("alert") && command != JStr("stop_alert")
    ensures r.None? <==> IsActuatorCommand(command) && !params.JObj?
    ensures r.Some? ==> r.value.0 == s.(soundHandle := r.value.0.soundHandle)
    ensures r.Some? ==> r.value.0.soundHandle == s.soundHandle || command == JStr("beep")
    ensures r.Some? ==> |r.value.1| == (if IsActuatorCommand(command) then 1 else 0)
    ensures r.Some? ==> Quiet(r.value.1)
  {
    if command == JStr("beep") then
      match PyGet(params, "duration", JInt(1))
      case None => None
      case Some(d) => Some((s.(soundHandle := AfterPlaying(s.soundHandle, play)), [PlaySound(d)]))
    else if command == JStr("vibrate") then
      match PyGet(params, "duration", JInt(1))
      case None => None
      case Some(d) => Some((s, [Vibrate(d)]))
    else if command == JStr("flash") then
      match PyGet(params, "count", JInt(3))
      case None => None
      case Some(c) => Some((s, [FlashLight(c)]))
    else
      Some((s, []))
  }

  /** The defaults of execute_command: a one-second beep or vibration and
      three flashes when params does not say otherwise. */
  lemma ExecuteCommandDefaults(s: Session, params: map<string, Json>, play: PlayOutcome)
    ensures "duration" !in params ==>
      && ExecuteCommand(s, JStr("beep"), JObj(params), play).value.1 == [PlaySound(JInt(1))]
      && ExecuteCommand(s, JStr("vibrate"), JObj(params), play).value.1 == [Vibrate(JInt(1))]
    ensures "duration" in params ==>
      && ExecuteCommand(s, JStr("beep"), JObj(params), play).value.1 == [PlaySound(params["duration"])]
      && ExecuteCommand(s, JStr("vibrate"), JObj(params), play).value.1 == [Vibrate(params["duration"])]
    ensures "count" !in params ==>
      ExecuteCommand(s, JStr("flash"), JObj(params), play).value.1 == [FlashLight(JInt(3))]
    ensures "count" in params ==>
      ExecuteCommand(s, JStr("flash"), JObj(params), play).value.1 == [FlashLight(params["count"])]
  {
  }

  /** How process_data treats a decoded value, stated on the message alone. */
  datatype Route =
    | Unanswered                         // not a dict, no "type" key, or execute_command raised
    | AnswerOnly                         // a "type" other than alert and command
    | Start(params: Json)                // start_alert(params)
    | Stop                               // stop_alert()
    | Execute(command: Json, params: Json)

  function RouteOf(v: Json): (r: Route)
    ensures Dispatchable(r)
    ensures r.Unanswered? <==> !Answered(Parsed(v))
  {
    if !v.JObj? || "type" !in v.fields then Unanswered
    else
      var f := v.fields;
      var params := Get(f, "params", Empty);
      var command := Get(f, "command", JNull);
      if f["type"] == JStr("alert") then Start(params)
      else if f["type"] != JStr("command") then AnswerOnly
      else if command == JStr("alert") then Start(params)
      else if command == JStr("stop_alert") then Stop
      else if IsActuatorCommand(command) && !params.JObj? then Unanswered
      else Execute(command, params)
  }

  /** A route process_data can carry out: execute_command is only reached
      with commands it does not raise on and never with alert or stop_alert. */
  predicate Dispatchable(r: Route)
  {
    r.Execute? ==>
      && r.command != JStr("alert") && r.command != JStr("stop_alert")
      && !(IsActuatorCommand(r.command) && !r.params.JObj?)
  }

  lemma RouteOfDispatchable(v: Json)
    ensures Dispatchable(RouteOf(v))
  {
  }

  /** The acknowledgement a route's transition writes on the recorded
      socket: start_alert's when it gets as far as reading params, stop_alert's
      when an alert is active. */
  function AckOf(s: Session, route: Route): seq<Outbound>
  {
    match route
    case Start(params) => if params.JNull? || params.JObj? then [AlertAck] else []
    case Stop => if s.active then [StopAlertAck] else []
    case _ => []
  }

  /** A transition's trace followed by the ok response on the socket. */
  function ThenRespond(e: seq<Effect>, sock: SocketId): (r: seq<Effect>)
    ensures |r| >= 1 && r[|r| - 1] == Send(sock, OkResponse)
    ensures Sends(r) == Sends(e) + [OkResponse]
    ensures SendsOnlyTo(e, Some(sock)) && NeverCloses(e) ==> SendsOnlyTo(r, Some(sock)) && NeverCloses(r)
  {
    var ok := [Send(sock, OkResponse)];
    assert SendsOnlyTo(ok, Some(sock)) && NeverCloses(ok);
    assert Sends(ok) == [OkResponse] by {
      assert ok[1..] == [];
    }
    AppendKeepsTraceFacts(e, ok, Some(sock));
    SendsAppend(e, ok);
    e + ok
  }

  /** The transition a dispatchable route names, before the response:
      start_alert, stop_alert, execute_command, or nothing. */
  function Transition(s: Session, route: Route, android: bool, play: PlayOutcome)
    : (out: (Session, seq<Effect>))
    requires Dispatchable(route) && !route.Unanswered?
    ensures out.0.ackSocket == s.ackSocket
    ensures SendsOnlyTo(out.1, s.ackSocket) && NeverCloses(out.1)
    ensures Sends(out.1) == if s.ackSocket.Some? then AckOf(s, route) else []
    ensures Consistent(s) ==> Consistent(out.0)
    ensures route.Start? ==> out == StartAlert(s, route.params)
    ensures route.Stop? ==> out == StopAlert(s, android)
    ensures route.Execute? ==> out == ExecuteCommand(s, route.command, route.params, play).value
    ensures route.AnswerOnly? ==> out == (s, [])
  {
    match route
    case AnswerOnly => assert Sends([]) == []; (s, [])
    case Start(params) => StartAlert(s, params)
    case Stop => StopAlert(s, android)
    case Execute(command, params) =>
      var r := ExecuteCommand(s, command, params, play).value;
      QuietSendsNothing(r.1);
      r
  }

  /** The dispatch part of process_data, after the socket has been recorded:
      the transition the route names, followed by the ok response on the
      recorded socket for every route but Unanswered. */
  function Dispatch(s: Session, route: Route, android: bool, play: PlayOutcome)
    : (out: (Session, seq<Effect>))
    requires s.ackSocket.Some? && Dispatchable(route)
    ensures out.0.ackSocket == s.ackSocket
    ensures SendsOnlyTo(out.1, s.ackSocket) && NeverCloses(out.1)
    ensures route.Unanswered? ==> out == (s, [])
    ensures !route.Unanswered? ==>
      && |out.1| >= 1 && out.1[|out.1| - 1] == Send(s.ackSocket.value, OkResponse)
      && Sends(out.1) == AckOf(s, route) + [OkResponse]
    ensures Consistent(s) ==> Consistent(out.0)
  {
    if route.Unanswered? then (s, [])
    else
      var t := Transition(s, route, android, play);
      (t.0, ThenRespond(t.1, s.ackSocket.value))
  }

  /** process_data(data, client_socket, address). Undecodable bytes and
      non-JSON text are only logged. Any decoded value makes its socket the
      one acknowledgements go to. A dict with a "type" key is dispatched and
      then answered with the ok response; everything else (a value that is
      not a dict, a dict without "type", a command whose execute_command
      raised) ends in the generic exception handler or in nothing, unanswered. */
  function ProcessData(s: Session, payload: DecodeResult, sock: SocketId, android: bool, play: PlayOutcome)
    : (out: (Session, seq<Effect>))
    ensures !payload.Parsed? ==> out == (s, [])
    ensures payload.Parsed? ==> out.0.ackSocket == Some(sock)
    ensures SendsOnlyTo(out.1, Some(sock)) && NeverCloses(out.1)
    ensures Consistent(s) ==> Consistent(out.0)
  {
    match payload
    case NotUtf8 => (s, [])
    case NotJson(_) => (s, [])
    case Parsed(v) =>
      RouteOfDispatchable(v);
      Dispatch(s.(ackSocket := Some(sock)), RouteOf(v), android, play)
  }

  /** The state process_data leaves behind: the socket is recorded, then the
      operation the message routes to is carried out on it. */
  lemma ProcessDataPerforms(s: Session, v: Json, sock: SocketId, android: bool, play: PlayOutcome)
    ensures var s1 := s.(ackSocket := Some(sock));
            var out := ProcessData(s, Parsed(v), sock, android, play).0;
            match RouteOf(v)
            case Start(params) => out == StartAlert(s1, params).0
            case Stop => out == StopAlert(s1, android).0
            case Execute(command, params) => out == ExecuteCommand(s1, command, params, play).value.0
            case AnswerOnly => out == s1
            case Unanswered => out == s1
  {
  }

  /** The message-level condition for an ok response. */
  predicate Answered(payload: DecodeResult)
  {
    && payload.Parsed?
    && payload.value.JObj?
    && "type" in payload.value.fields
    && !(payload.value.fields["type"] == JStr("command")
         && IsActuatorCommand(Get(payload.value.fields, "command", JNull))
         && !Get(payload.value.fields, "params", Empty).JObj?)
  }

  /** The routes that end with the ok response are exactly the answered
      messages. */
  lemma AnsweredIffRouted(v: Json)
    ensures Answered(Parsed(v)) <==> !RouteOf(v).Unanswered?
  {
  }

  /** Exactly one ok response is written for a dict with a "type" key whose
      dispatch does not raise, none for anything else, and when it is written
      it is the last thing process_data does. */
  lemma ProcessDataAnswersOnce(s: Session, payload: DecodeResult, sock: SocketId, android: bool, play: PlayOutcome)
    ensures var e := ProcessData(s, payload, sock, android, play).1;
            && multiset(Sends(e))[OkResponse] == (if Answered(payload) then 1 else 0)
            && (Answered(payload) ==> |e| >= 1 && e[|e| - 1] == Send(sock, OkResponse))
  {
    if payload.Parsed? {
      AnsweredIffRouted(payload.value);
      var s1 := s.(ackSocket := Some(sock));
      var route := RouteOf(payload.value);
      if !route.Unanswered? {
        assert multiset(AckOf(s1, route))[OkResponse] == 0;
      }
    }
  }

  /** The writes of a dispatched chunk: the route's acknowledgement, then
      the ok response. */
  lemma DispatchedWrites(s: Session, v: Json, sock: SocketId, android: bool, play: PlayOutcome)
    requires !RouteOf(v).Unanswered?
    ensures Sends(ProcessData(s, Parsed(v), sock, android, play).1)
            == AckOf(s, RouteOf(v)) + [OkResponse]
  {
    RouteOfDispatchable(v);
    var s1 := s.(ackSocket := Some(sock));
    assert ProcessData(s, Parsed(v), sock, android, play) == Dispatch(s1, RouteOf(v), android, play);
    assert AckOf(s1, RouteOf(v)) == AckOf(s, RouteOf(v));
  }

  /** start_alert's acknowledgement, when start_alert gets as far as
      reading params (a dict or null), goes out before the ok response;
      otherwise only the ok response is written. */
  lemma StartAckPrecedesResponse(s: Session, v: Json, params: Json, sock: SocketId, android: bool, play: PlayOutcome)
    requires RouteOf(v) == Start(params)
    ensures Sends(ProcessData(s, Parsed(v), sock, android, play).1)
            == if params.JObj? || params.JNull? then [AlertAck, OkResponse] else [OkResponse]
  {
    DispatchedWrites(s, v, sock, android, play);
    StartWrites(Sends(ProcessData(s, Parsed(v), sock, android, play).1), s, v, params);
  }

  /** The writes of a started alert, read off its acknowledgement. */
  lemma StartWrites(w: seq<Outbound>, s: Session, v: Json, params: Json)
    requires RouteOf(v) == Start(params)
    requires w == AckOf(s, RouteOf(v)) + [OkResponse]
    ensures w == if params.JObj? || params.JNull? then [AlertAck, OkResponse] else [OkResponse]
  {
  }

  /** stop_alert's acknowledgement goes out before the ok response when an
      alert was active; an idle stop writes only the ok response. */
  lemma StopAckPrecedesResponse(s: Session, v: Json, sock: SocketId, android: bool, play: PlayOutcome)
    requires RouteOf(v) == Stop
    ensures Sends(ProcessData(s, Parsed(v), sock, android, play).1)
            == if s.active then [StopAlertAck, OkResponse] else [OkResponse]
  {
    DispatchedWrites(s, v, sock, android, play);
  }

  /** Routing: the alert shorthand and the alert command both start the
      session with params (default {}), stop_alert stops it, every other
      command goes to execute_command with its command and params (and an
      actuator command whose params is not a dict raises there, unanswered),
      and an unknown type only gets the response. */
  lemma Routing(f: map<string, Json>)
    requires "type" in f
    ensures f["type"] == JStr("alert") ==> RouteOf(JObj(f)) == Start(Get(f, "params", Empty))
    ensures f["type"] == JStr("command") && Get(f, "command", JNull) == JStr("alert") ==>
              RouteOf(JObj(f)) == Start(Get(f, "params", Empty))
    ensures f["type"] == JStr("command") && Get(f, "command", JNull) == JStr("stop_alert") ==>
              RouteOf(JObj(f)) == Stop
    ensures f["type"] != JStr("alert") && f["type"] != JStr("command") ==> RouteOf(JObj(f)) == AnswerOnly
    ensures (f["type"] == JStr("command")
             && Get(f, "command", JNull) != JStr("alert") && Get(f, "command", JNull) != JStr("stop_alert")
             && !(IsActuatorCommand(Get(f, "command", JNull)) && !Get(f, "params", Empty).JObj?)) ==>
              RouteOf(JObj(f)) == Execute(Get(f, "command", JNull), Get(f, "params", Empty))
    ensures (f["type"] == JStr("command") && IsActuatorCommand(Get(f, "command", JNull))
             && !Get(f, "params", Empty).JObj?) ==> RouteOf(JObj(f)) == Unanswered
    ensures RouteOf(JObj(f)).Execute? ==>
              && f["type"] == JStr("command")
              && RouteOf(JObj(f)).command !in {JStr("alert"), JStr("stop_alert")}
              && RouteOf(JObj(f)).params == Get(f, "params", Empty)
  {
  }

  /** The alert command of the end-to-end exchange below. */
  const FireAlert: Json :=
    JObj(map["type" := JStr("command"), "command" := JStr("alert"),
             "params" := JObj(map["source" := JStr("node-1"), "message" := JStr("fire")])])

  /** Its stop_alert command. */
  const StopCommand: Json := JObj(map["type" := JStr("command"), "command" := JStr("stop_alert")])

  /** An alert command from node-1 on an idle session activates it with that
      source and writes the acknowledgement, then the response. */
  lemma FireAlertStarts(sock: SocketId, android: bool, play: PlayOutcome)
    ensures var (s1, e1) := ProcessData(Init, Parsed(FireAlert), sock, android, play);
            && s1.active && s1.source == Some(JStr("node-1"))
            && Sends(e1) == [AlertAck, OkResponse]
  {
    var params := map["source" := JStr("node-1"), "message" := JStr("fire")];
    var fa := FireAlert.fields;
    assert Get(fa, "command", JNull) == JStr("alert") && Get(fa, "params", Empty) == JObj(params);
    assert RouteOf(FireAlert) == Start(JObj(params));
    assert Get(params, "source", DefaultSource) == JStr("node-1");
    StartedState(Init, FireAlert, params, sock, android, play);
    StartAckPrecedesResponse(Init, FireAlert, JObj(params), sock, android, play);
  }

  /** The session after an alert whose params is a dict: active, with the
      source the params name. */
  lemma StartedState(s: Session, v: Json, params: map<string, Json>, sock: SocketId,
                     android: bool, play: PlayOutcome)
    requires RouteOf(v) == Start(JObj(params))
    ensures var out := ProcessData(s, Parsed(v), sock, android, play).0;
            out.active && out.source == Some(Get(params, "source", DefaultSource))
  {
    var out := ProcessData(s, Parsed(v), sock, android, play).0;
    var s0 := s.(ackSocket := Some(sock));
    var route := Start(JObj(params));
    assert out == Dispatch(s0, route, android, play).0;
    assert out == Transition(s0, route, android, play).0;
    assert out == StartAlert(s0, JObj(params)).0;
  }

  /** stop_alert on an active session makes it idle and writes the stop
      acknowledgement, then the response. */
  lemma StopCommandStops(s: Session, sock: SocketId, android: bool, play: PlayOutcome)
    requires s.active
    ensures var (s2, e2) := ProcessData(s, Parsed(StopCommand), sock, android, play);
            && !s2.active && !Guard(s2)
            && Sends(e2) == [StopAlertAck, OkResponse]
  {
    var fs := StopCommand.fields;
    assert Get(fs, "command", JNull) == JStr("stop_alert");
    assert RouteOf(StopCommand) == Stop;
    StopAckPrecedesResponse(s, StopCommand, sock, android, play);
  }

  /** The end-to-end exchange: the alert from node-1, then stop_alert on the
      same connection. */
  lemma AlertThenStopScenario(sock: SocketId, android: bool, play: PlayOutcome)
    ensures var (s1, e1) := ProcessData(Init, Parsed(FireAlert), sock, android, play);
            var (s2, e2) := ProcessData(s1, Parsed(StopCommand), sock, android, play);
            && s1.active && s1.source == Some(JStr("node-1"))
            && Sends(e1) == [AlertAck, OkResponse]
            && !s2.active && !Guard(s2)
            && Sends(e2) == [StopAlertAck, OkResponse]
  {
    FireAlertStarts(sock, android, play);
    var s1 := ProcessData(Init, Parsed(FireAlert), sock, android, play).0;
    StopCommandStops(s1, sock, android, play);
  }

  // ---------------------------------------------------------------------
  // handle_client

  /** handle_client(client_socket, address), for a connection whose loop
      processed `chunks` before it ended (an empty read, a failed read, or
      is_listening found false: all three leave through the same finally).
      Each chunk goes through process_data, then the socket is closed. */
  function HandleClient(s: Session, sock: SocketId, chunks: seq<Chunk>, android: bool)
    : (out: (Session, seq<Effect>))
    decreases |chunks|
  {
    if chunks == [] then (s, [Close(sock)])
    else
      var first := ProcessData(s, chunks[0].payload, sock, android, chunks[0].play);
      var rest := HandleClient(first.0, sock, chunks[1..], android);
      (rest.0, first.1 + rest.1)
  }

  /** The first chunk's process_data, then the rest of the connection. */
  lemma HandleClientUnfold(s: Session, sock: SocketId, chunks: seq<Chunk>, android: bool)
    requires chunks != []
    ensures var first := ProcessData(s, chunks[0].payload, sock, android, chunks[0].play);
            var rest := HandleClient(first.0, sock, chunks[1..], android);
            HandleClient(s, sock, chunks, android) == (rest.0, first.1 + rest.1)
  {
  }

  function CountAnswered(chunks: seq<Chunk>): nat
  {
    if chunks == [] then 0
    else (if Answered(chunks[0].payload) then 1 else 0) + CountAnswered(chunks[1..])
  }

  function CountCloses(e: seq<Effect>): nat
  {
    if e == [] then 0
    else (if e[0].Close? then 1 else 0) + CountCloses(e[1..])
  }

  lemma {:induction false} CountClosesAppend(a: seq<Effect>, b: seq<Effect>)
    ensures CountCloses(a + b) == CountCloses(a) + CountCloses(b)
  {
    if a == [] {
      assert a + b == b;
    } else {
      assert (a + b)[1..] == a[1..] + b;
      CountClosesAppend(a[1..], b);
    }
  }

  lemma {:induction false} ProcessDataNeverCloses(e: seq<Effect>)
    requires NeverCloses(e)
    ensures CountCloses(e) == 0
  {
    if e != [] {
      ProcessDataNeverCloses(e[1..]);
    }
  }

  /** Whatever the chunks, the connection's socket is closed exactly once,
      as the very last effect, and nothing is ever written to another
      socket. */
  lemma {:induction false} HandleClientCloses(s: Session, sock: SocketId, chunks: seq<Chunk>, android: bool)
    ensures var e := HandleClient(s, sock, chunks, android).1;
            && |e| >= 1 && e[|e| - 1] == Close(sock)
            && CountCloses(e) == 1 && SendsOnlyTo(e, Some(sock))
    decreases |chunks|
  {
    if chunks == [] {
      assert [Close(sock)][1..] == [];
      assert CountCloses([Close(sock)]) == 1;
    } else {
      var c := chunks[0];
      var first := ProcessData(s, c.payload, sock, android, c.play);
      var e2 := HandleClient(first.0, sock, chunks[1..], android).1;
      HandleClientUnfold(s, sock, chunks, android);
      HandleClientCloses(first.0, sock, chunks[1..], android);
      ProcessDataNeverCloses(first.1);
      CountClosesAppend(first.1, e2);
      AppendKeepsTraceFacts(first.1, e2, Some(sock));
      assert (first.1 + e2)[|first.1 + e2| - 1] == e2[|e2| - 1];
    }
  }

  /** The connection receives exactly one ok response per answered chunk. */
  lemma {:induction false} HandleClientAnswers(s: Session, sock: SocketId, chunks: seq<Chunk>, android: bool)
    ensures multiset(Sends(HandleClient(s, sock, chunks, android).1))[OkResponse] == CountAnswered(chunks)
    decreases |chunks|
  {
    if chunks == [] {
      assert [Close(sock)][1..] == [];
      assert Sends([Close(sock)]) == [];
    } else {
      var c := chunks[0];
      var first := ProcessData(s, c.payload, sock, android, c.play);
      var e1 := first.1;
      var e2 := HandleClient(first.0, sock, chunks[1..], android).1;
      HandleClientUnfold(s, sock, chunks, android);
      HandleClientAnswers(first.0, sock, chunks[1..], android);
      ProcessDataAnswersOnce(s, c.payload, sock, android, c.play);
      SendsAppend(e1, e2);
      assert multiset(Sends(e1 + e2)) == multiset(Sends(e1)) + multiset(Sends(e2));
    }
  }

  /** A connection keeps the session consistent, whatever it sends. */
  lemma {:induction false} HandleClientConsistent(s: Session, sock: SocketId, chunks: seq<Chunk>, android: bool)
    requires Consistent(s)
    ensures Consistent(HandleClient(s, sock, chunks, android).0)
    decreases |chunks|
  {
    if chunks != [] {
      var c := chunks[0];
      var first := ProcessData(s, c.payload, sock, android, c.play);
      HandleClientUnfold(s, sock, chunks, android);
      HandleClientConsistent(first.0, sock, chunks[1..], android);
    }
  }
}

=== FILE: alert_session.dfy ===
/**
 The alert session of main.py: the two-state machine of is_alert_active and
 alert_stop_event, the acknowledgements start_alert and stop_alert attempt on
 the recorded client socket, and the background flash and sound loops, which
 are modelled only through their guard and one step of each thread.
 */
module AlertSession {
  import opened Json

  type SocketId = nat

  /** A threading.Event; every replacement gets a fresh id. */
  datatype StopEvent = StopEvent(id: nat, isSet: bool)

  /** Where a running sound-loop thread stands: about to test the loop guard,
      or just back from play_sound and about to test the stop event. */
  datatype SoundPhase = AtGuard | AfterPlay

  /** What play_sound did to current_alert_sound: on Android with an audio
      file it is replaced by SoundLoader.load's result (a handle or None);
      on every other path it is left alone. */
  datatype PlayOutcome = Untouched | Loaded | LoadFailed

  datatype Session = Session(
    active: bool,                  // is_alert_active
    stopEvent: StopEvent,          // alert_stop_event
    source: Option<Json>,          // alert_source
    soundHandle: bool,             // current_alert_sound is not None
    ackSocket: Option<SocketId>,   // client_socket of the latest decoded message
    flashAlive: bool,              // flash_thread exists and is alive
    soundLoops: seq<SoundPhase>)   // one entry per running _sound_loop thread

  /** The state build() sets up. */
  const Init: Session :=
    Session(false, StopEvent(0, false), None, false, None, false, [])

  /** Everything the alert code does outside its own state, in order. */
  datatype Effect =
    | Send(sock: SocketId, msg: Outbound)  // client_socket.send(json.dumps(Body(msg)))
    | SetEvent(eventId: nat)               // alert_stop_event.set()
    | ShowFloating(text: Json)             // show_floating_window(text)
    | SpawnFlashLoop
    | SpawnSoundLoop
    | PlaySound(duration: Json)            // play_sound(duration)
    | Vibrate(duration: Json)              // vibrate(duration)
    | FlashLight(count: Json)              // flash_light(count)
    | Notify(title: string, body: Json)    // show_notification(title, body)
    | StopSound                            // current_alert_sound.stop()
    | ToggleFlash(on: bool)                // droid.toggleFlashLight(on)
    | StopRingtone                         // droid.stopRingtone()
    | CancelVibrate                        // droid.cancelVibrate()
    | CancelNotification                   // droid.cancelNotification()
    | Close(sock: SocketId)                // client_socket.close()

  /** The three messages written back on a client socket. */
  datatype Outbound = OkResponse | AlertAck | StopAlertAck

  /** The JSON object each outbound message serialises. */
  function Body(m: Outbound): (j: Json)
    ensures j.JObj? && "message" in j.fields
    ensures m == OkResponse ==> j == JObj(map["status" := JStr("ok"), "message" := JStr("已处理")])
    ensures m == AlertAck ==> j == JObj(map["type" := JStr("alert_ack"), "message" := JStr("警报已启动")])
    ensures m == StopAlertAck ==> j == JObj(map["type" := JStr("stop_alert_ack"), "message" := JStr("警报已停止")])
  {
    match m
    case OkResponse => JObj(map["status" := JStr("ok"), "message" := JStr("已处理")])
    case AlertAck => JObj(map["type" := JStr("alert_ack"), "message" := JStr("警报已启动")])
    case StopAlertAck => JObj(map["type" := JStr("stop_alert_ack"), "message" := JStr("警报已停止")])
  }

  const DefaultSource: Json := JStr("unknown")
  const DefaultAlertMessage: Json := JStr("收到警报！")
  const AlertTitle: string := "紧急警报"

  /** The sound loop plays two seconds per iteration. */
  const LoopSoundDuration: Json := JInt(2)

  /** The condition both background loops test before every iteration:
      not alert_stop_event.is_set() and is_alert_active. */
  predicate Guard(s: Session)
  {
    !s.stopEvent.isSet && s.active
  }

  /** The messages written in a trace, in order. */
  function Sends(e: seq<Effect>): seq<Outbound>
  {
    if e == [] then []
    else (if e[0].Send? then [e[0].msg] else []) + Sends(e[1..])
  }

  lemma {:induction false} SendsAppend(a: seq<Effect>, b: seq<Effect>)
    ensures Sends(a + b) == Sends(a) + Sends(b)
  {
    if a == [] {
      assert a + b == b;
    } else {
      var head := if a[0].Send? then [a[0].msg] else [];
      assert (a + b)[0] == a[0];
      assert (a + b)[1..] == a[1..] + b;
      assert Sends(a + b) == head + Sends(a[1..] + b);
      SendsAppend(a[1..], b);
      assert Sends(a) == head + Sends(a[1..]);
    }
  }

  /** A trace that neither writes to nor closes a socket. */
  predicate Quiet(e: seq<Effect>)
  {
    forall i :: 0 <= i < |e| ==> !e[i].Send? && !e[i].Close?
  }

  lemma {:induction false} QuietSendsNothing(e: seq<Effect>)
    requires Quiet(e)
    ensures Sends(e) == []
  {
    if e != [] {
      QuietSendsNothing(e[1..]);
    }
  }

  /** send_alert_ack / send_stop_alert_ack: one send on the recorded socket
      if there is one; a failing send is swallowed, so the effect is an attempt. */
  function Ack(ackSocket: Option<SocketId>, body: Outbound): (e: seq<Effect>)
    ensures ackSocket.None? ==> e == []
    ensures ackSocket.Some? ==> e == [Send(ackSocket.value, body)]
    ensures Sends(e) == if ackSocket.Some? then [body] else []
  {
    match ackSocket
    case None => []
    case Some(sock) => assert [Send(sock, body)][1..] == []; [Send(sock, body)]
  }

  /** Every write in the trace goes to the given socket (none when there is
      no socket). */
  predicate SendsOnlyTo(e: seq<Effect>, target: Option<SocketId>)
  {
    forall i :: 0 <= i < |e| && e[i].Send? ==> target == Some(e[i].sock)
  }

  /** The trace never closes a socket. */
  predicate NeverCloses(e: seq<Effect>)
  {
    forall i :: 0 <= i < |e| ==> !e[i].Close?
  }

  lemma AppendKeepsTraceFacts(a: seq<Effect>, b: seq<Effect>, target: Option<SocketId>)
    ensures SendsOnlyTo(a, target) && SendsOnlyTo(b, target) ==> SendsOnlyTo(a + b, target)
    ensures NeverCloses(a) && NeverCloses(b) ==> NeverCloses(a + b)
  {
    if SendsOnlyTo(a, target) && SendsOnlyTo(b, target) {
      forall i | 0 <= i < |a + b| && (a + b)[i].Send?
        ensures target == Some((a + b)[i].sock)
      {
        if i >= |a| {
          assert (a + b)[i] == b[i - |a|];
        }
      }
    }
    if NeverCloses(a) && NeverCloses(b) {
      forall i | 0 <= i < |a + b|
        ensures !(a + b)[i].Close?
      {
        if i >= |a| {
          assert (a + b)[i] == b[i - |a|];
        }
      }
    }
  }

  /** A quiet trace followed by an acknowledgement writes only that
      acknowledgement, to the recorded socket, and closes nothing. */
  lemma QuietThenAck(front: seq<Effect>, ackSocket: Option<SocketId>, body: Outbound)
    requires Quiet(front)
    ensures Sends(front + Ack(ackSocket, body)) == if ackSocket.Some? then [body] else []
    ensures SendsOnlyTo(front + Ack(ackSocket, body), ackSocket)
    ensures NeverCloses(front + Ack(ackSocket, body))
  {
    var a := Ack(ackSocket, body);
    SendsAppend(front, a);
    QuietSendsNothing(front);
    assert Sends(front + a) == Sends(a);
    AppendKeepsTraceFacts(front, a, ackSocket);
  }

  /** The current_alert_sound after a play_sound call. */
  function AfterPlaying(handle: bool, play: PlayOutcome): bool
  {
    match play
    case Untouched => handle
    case Loaded => true
    case LoadFailed => false
  }

  /** What start_alert does between cycling the stop event and acknowledging:
      the floating window, a flash loop unless one is alive, a new sound
      loop, one default vibration and the notification. */
  function StartActions(s: Session, message: Json): (e: seq<Effect>)
    ensures Quiet(e)
    ensures SpawnSoundLoop in e && ShowFloating(message) in e && Notify(AlertTitle, message) in e
    ensures SpawnFlashLoop in e <==> !s.flashAlive
    ensures Vibrate(JInt(1)) in e
  {
    var spawnFlash := if s.flashAlive then [] else [SpawnFlashLoop];
    [SetEvent(s.stopEvent.id), ShowFloating(message)] + spawnFlash
      + [SpawnSoundLoop, Vibrate(JInt(1)), Notify(AlertTitle, message)]
  }

  /** The loops start_alert spawns: exactly one sound loop, and a flash loop
      at most once; and it vibrates only once. */
  lemma StartSpawnsOnce(s: Session, message: Json)
    ensures var e := StartActions(s, message);
            && (forall i, j :: 0 <= i < j < |e| ==> !(e[i] == SpawnSoundLoop && e[j] == SpawnSoundLoop))
            && (forall i, j :: 0 <= i < j < |e| ==> !(e[i] == SpawnFlashLoop && e[j] == SpawnFlashLoop))
            && (forall i, j :: 0 <= i < j < |e| ==> !(e[i] == Vibrate(JInt(1)) && e[j] == Vibrate(JInt(1))))
  {
    var e := StartActions(s, message);
    var k := if s.flashAlive then 0 else 1;
    assert |e| == 5 + k;
    assert forall i :: 0 <= i < |e| && e[i] == SpawnSoundLoop ==> i == 2 + k;
    assert forall i :: 0 <= i < |e| && e[i] == Vibrate(JInt(1)) ==> i == 3 + k;
    assert forall i :: 0 <= i < |e| && e[i] == SpawnFlashLoop ==> i == 2;
  }

  /** start_alert(params). A None (JSON null) params becomes {}. The session
      is made active and the stop event cycled before params is read, so a
      params value that is not a dict stops start_alert there (its exception
      is caught and logged): the session is active but nothing is shown,
      spawned or acknowledged. */
  function StartAlert(s: Session, params: Json): (out: (Session, seq<Effect>))
    ensures out.0.active && Guard(out.0)
    ensures out.0.stopEvent.id > s.stopEvent.id
    ensures |out.1| >= 1 && out.1[0] == SetEvent(s.stopEvent.id)
    ensures out.0.ackSocket == s.ackSocket && out.0.soundHandle == s.soundHandle
    ensures SendsOnlyTo(out.1, s.ackSocket) && NeverCloses(out.1)
    ensures Sends(out.1) == if s.ackSocket.Some? && (params.JNull? || params.JObj?) then [AlertAck] else []
    ensures (params.JNull? || params.JObj?) ==>
      var p := if params.JNull? then map[] else params.fields;
      && out.0.source == Some(Get(p, "source", DefaultSource))
      && out.0.flashAlive
      && out.0.soundLoops == s.soundLoops + [AtGuard]
      && (SpawnFlashLoop in out.1 <==> !s.flashAlive)
      && SpawnSoundLoop in out.1
      && ShowFloating(Get(p, "message", DefaultAlertMessage)) in out.1
      && Notify(AlertTitle, Get(p, "message", DefaultAlertMessage)) in out.1
    ensures !(params.JNull? || params.JObj?) ==>
      out == (s.(active := true, stopEvent := StopEvent(s.stopEvent.id + 1, false)), [SetEvent(s.stopEvent.id)])
  {
    var p := if params.JNull? then Empty else params;
    var cycled := s.(active := true, stopEvent := StopEvent(s.stopEvent.id + 1, false));
    if p.JObj? then
      var message := Get(p.fields, "message", DefaultAlertMessage);
      var front := StartActions(s, message);
      QuietThenAck(front, s.ackSocket, AlertAck);
      (cycled.(source := Some(Get(p.fields, "source", DefaultSource)), flashAlive := true,
               soundLoops := s.soundLoops + [AtGuard]),
       front + Ack(s.ackSocket, AlertAck))
    else
      assert Quiet([SetEvent(s.stopEvent.id)]);
      QuietThenAck([SetEvent(s.stopEvent.id)], None, AlertAck);
      (cycled, [SetEvent(s.stopEvent.id)])
  }

  /** With dict or null params, start_alert's trace is exactly its middle
      part for the message the params name, then the acknowledgement; so it
      vibrates once and spawns the loops as StartActions and StartSpawnsOnce
      say. */
  lemma StartAlertPerforms(s: Session, params: Json)
    ensures (params.JNull? || params.JObj?) ==>
      var p := if params.JNull? then map[] else params.fields;
      StartAlert(s, params).1 == StartActions(s, Get(p, "message", DefaultAlertMessage)) + Ack(s.ackSocket, AlertAck)
    ensures (params.JNull? || params.JObj?) ==> Vibrate(JInt(1)) in StartAlert(s, params).1
  {
  }

  /** What stop_alert does between clearing the flag and acknowledging. */
  function StopActions(s: Session, android: bool): (e: seq<Effect>)
    ensures Quiet(e)
    ensures |e| >= 1 && e[0] == SetEvent(s.stopEvent.id)
    ensures StopSound in e <==> s.soundHandle
    ensures CancelVibrate in e <==> android
    ensures ToggleFlash(false) in e <==> android
    ensures StopRingtone in e <==> android
    ensures CancelNotification in e <==> android
  {
    var stopSound := if s.soundHandle then [StopSound] else [];
    var device := if android then [ToggleFlash(false), StopRingtone, CancelVibrate, CancelNotification] else [];
    [SetEvent(s.stopEvent.id)] + stopSound + device
  }

  /** stop_alert(). While no alert is active it only logs. Otherwise it sets
      the stop event, clears the flag, stops and forgets the sound handle, on
      Android asks the device to switch off flash, ringtone, vibration and
      notification, and attempts one stop acknowledgement. */
  function StopAlert(s: Session, android: bool): (out: (Session, seq<Effect>))
    ensures !s.active ==> out == (s, [])
    ensures s.active ==>
      && !out.0.active && out.0.stopEvent == s.stopEvent.(isSet := true)
      && !out.0.soundHandle
      && out.0.source == s.source && out.0.ackSocket == s.ackSocket
      && out.0.flashAlive == s.flashAlive && out.0.soundLoops == s.soundLoops
      && |out.1| >= 1 && out.1[0] == SetEvent(s.stopEvent.id)
      && (StopSound in out.1 <==> s.soundHandle)
      && (CancelVibrate in out.1 <==> android)
    ensures !Guard(out.0)
    ensures SendsOnlyTo(out.1, s.ackSocket) && NeverCloses(out.1)
    ensures Sends(out.1) == if s.active && s.ackSocket.Some? then [StopAlertAck] else []
  {
    if !s.active then (s, [])
    else
      var front := StopActions(s, android);
      QuietThenAck(front, s.ackSocket, StopAlertAck);
      (s.(active := false, stopEvent := s.stopEvent.(isSet := true), soundHandle := false),
       front + Ack(s.ackSocket, StopAlertAck))
  }

  /** On an active session, stop_alert's trace is exactly its middle part,
      then the acknowledgement; so on Android it switches the flash off,
      stops the ringtone, cancels the vibration and the notification. */
  lemma StopAlertPerforms(s: Session, android: bool)
    ensures s.active ==> StopAlert(s, android).1 == StopActions(s, android) + Ack(s.ackSocket, StopAlertAck)
    ensures s.active ==>
      var e := StopAlert(s, android).1;
      && (ToggleFlash(false) in e <==> android)
      && (StopRingtone in e <==> android)
      && (CancelVibrate in e <==> android)
      && (CancelNotification in e <==> android)
  {
  }

  /** The session invariant: an active alert never has a set stop event,
      so the loop guard holds exactly while an alert is active; and while
      the session is idle with its stop event unset (before the first
      start), no background thread is running. */
  predicate Consistent(s: Session)
  {
    && (Guard(s) <==> s.active)
    && (!s.active && !s.stopEvent.isSet ==> s.soundLoops == [] && !s.flashAlive)
  }

  /** The state build() sets up is consistent. */
  lemma InitConsistent()
    ensures Consistent(Init)
  {
  }

  /** A second consecutive stop is a no-op, whatever the first one found. */
  lemma StopIdempotent(s: Session, android: bool)
    ensures StopAlert(StopAlert(s, android).0, android) == (StopAlert(s, android).0, [])
  {
  }

  /** Two starts in a row leave the session active with the second call's
      source, and the second start spawns no second flash loop but does
      spawn a second sound loop, so two sound-loop threads are running. */
  lemma RestartKeepsLatestSource(s: Session, p1: Json, p2: Json)
    requires p1.JObj? && p2.JObj?
    ensures var s1 := StartAlert(s, p1).0;
            var (s2, e2) := StartAlert(s1, p2);
            && s2.active
            && s2.source == Some(Get(p2.fields, "source", DefaultSource))
            && SpawnFlashLoop !in e2
            && SpawnSoundLoop in e2
            && |s2.soundLoops| == |s.soundLoops| + 2
  {
  }

  // ---------------------------------------------------------------------
  // Background loops

  /** One iteration of _flash_loop. If the guard fails the thread ends;
      otherwise on Android the light is switched on and then off (half a
      second each), elsewhere the iteration only logs and sleeps. */
  function FlashStep(s: Session, android: bool): (out: (Session, seq<Effect>))
    ensures out.0 == s.(flashAlive := out.0.flashAlive)
    ensures !Guard(s) ==> out == (s.(flashAlive := false), [])
    ensures Guard(s) && s.flashAlive ==> out.0.flashAlive
    ensures ToggleFlash(true) in out.1 ==> Guard(s) && s.flashAlive && android
    ensures Guard(s) && s.flashAlive && android ==> out == (s, [ToggleFlash(true), ToggleFlash(false)])
    ensures Guard(s) && s.flashAlive && !android ==> out == (s, [])
  {
    if !s.flashAlive then (s, [])
    else if !Guard(s) then (s.(flashAlive := false), [])
    else if android then (s, [ToggleFlash(true), ToggleFlash(false)])
    else (s, [])
  }

  /** Sequence s without its i-th element. */
  function Without<T>(q: seq<T>, i: nat): (r: seq<T>)
    requires i < |q|
    ensures |r| == |q| - 1
    ensures forall k :: 0 <= k < i ==> r[k] == q[k]
    ensures forall k :: i <= k < |r| ==> r[k] == q[k + 1]
  {
    q[..i] + q[i + 1..]
  }

  /** One step of the i-th _sound_loop thread. At the guard it either ends
      or plays two seconds of sound; after playing it ends if the stop event
      is set and otherwise pauses and returns to the guard. */
  function SoundStep(s: Session, i: nat, play: PlayOutcome): (out: (Session, seq<Effect>))
    requires i < |s.soundLoops|
    ensures out.0.active == s.active && out.0.stopEvent == s.stopEvent
    ensures out.0.source == s.source && out.0.ackSocket == s.ackSocket
    ensures out.0.flashAlive == s.flashAlive
    ensures out.1 != [] ==> Guard(s) && s.soundLoops[i] == AtGuard && out.1 == [PlaySound(LoopSoundDuration)]
    ensures |out.0.soundLoops| <= |s.soundLoops|
    ensures s.stopEvent.isSet ==> out == (s.(soundLoops := Without(s.soundLoops, i)), [])
    ensures Guard(s) && s.soundLoops[i] == AtGuard ==>
      && out.1 == [PlaySound(LoopSoundDuration)]
      && out.0.soundLoops == s.soundLoops[i := AfterPlay]
      && out.0.soundHandle == AfterPlaying(s.soundHandle, play)
    ensures !Guard(s) && s.soundLoops[i] == AtGuard ==> out == (s.(soundLoops := Without(s.soundLoops, i)), [])
    ensures !s.stopEvent.isSet && s.soundLoops[i] == AfterPlay ==>
      out == (s.(soundLoops := s.soundLoops[i := AtGuard]), [])
  {
    match s.soundLoops[i]
    case AtGuard =>
      if Guard(s) then
        (s.(soundLoops := s.soundLoops[i := AfterPlay], soundHandle := AfterPlaying(s.soundHandle, play)),
         [PlaySound(LoopSoundDuration)])
      else (s.(soundLoops := Without(s.soundLoops, i)), [])
    case AfterPlay =>
      if s.stopEvent.isSet then (s.(soundLoops := Without(s.soundLoops, i)), [])
      else (s.(soundLoops := s.soundLoops[i := AtGuard]), [])
  }

  /** A scheduling choice for the background threads. */
  datatype LoopStep = FlashTick | SoundTick(index: nat, play: PlayOutcome)

  /** Runs the background threads through a schedule (steps naming a thread
      that is not running are skipped), with no start or stop in between. */
  function RunLoops(s: Session, sched: seq<LoopStep>, android: bool): (out: (Session, seq<Effect>))
    ensures out.0.ackSocket == s.ackSocket && out.0.source == s.source
    ensures Quiet(out.1)
    decreases |sched|
  {
    if sched == [] then (s, [])
    else
      var (s1, e1) :=
        match sched[0]
        case FlashTick => FlashStep(s, android)
        case SoundTick(i, play) => if i < |s.soundLoops| then SoundStep(s, i, play) else (s, []);
      var (s2, e2) := RunLoops(s1, sched[1..], android);
      (s2, e1 + e2)
  }

  /** Once the guard is false (after any stop_alert) and until the next
      start, the background threads perform no actuator call at all, no
      sound thread is added, the guard stays false, and a flash thread that
      is stepped ends. */
  lemma {:induction false} HaltedLoopsAreSilent(s: Session, sched: seq<LoopStep>, android: bool)
    requires !Guard(s)
    ensures RunLoops(s, sched, android).1 == []
    ensures !Guard(RunLoops(s, sched, android).0)
    ensures |RunLoops(s, sched, android).0.soundLoops| <= |s.soundLoops|
    ensures FlashTick in sched ==> !RunLoops(s, sched, android).0.flashAlive
    decreases |sched|
  {
    if sched != [] {
      var s1 := match sched[0]
        case FlashTick => FlashStep(s, android).0
        case SoundTick(i, play) => if i < |s.soundLoops| then SoundStep(s, i, play).0 else s;
      HaltedLoopsAreSilent(s1, sched[1..], android);
      if FlashTick in sched[1..] {
      } else if FlashTick in sched {
        assert sched[0] == FlashTick by {
          assert sched == [sched[0]] + sched[1..];
        }
        FlashFlagStaysDown(s1, sched[1..], android);
      }
    }
  }

  /** Loop steps never raise a flash flag that is down. */
  lemma {:induction false} FlashFlagStaysDown(s: Session, sched: seq<LoopStep>, android: bool)
    requires !s.flashAlive
    ensures !RunLoops(s, sched, android).0.flashAlive
    decreases |sched|
  {
    if sched != [] {
      var s1 := match sched[0]
        case FlashTick => FlashStep(s, android).0
        case SoundTick(i, play) => if i < |s.soundLoops| then SoundStep(s, i, play).0 else s;
      FlashFlagStaysDown(s1, sched[1..], android);
    }
  }

  /** After stop_alert every background thread ends at its very next step
      without touching an actuator. */
  lemma StopHaltsEachLoop(s: Session, android: bool, play: PlayOutcome)
    requires s.active
    ensures var s' := StopAlert(s, android).0;
            && FlashStep(s', android) == (s'.(flashAlive := false), [])
            && forall i :: 0 <= i < |s'.soundLoops| ==>
                 SoundStep(s', i, play) == (s'.(soundLoops := Without(s'.soundLoops, i)), [])
  {
  }

  /** start_alert always leaves the session consistent. */
  lemma StartKeepsConsistent(s: Session, params: Json)
    ensures Consistent(StartAlert(s, params).0)
  {
  }

  /** stop_alert keeps a consistent session consistent. */
  lemma StopKeepsConsistent(s: Session, android: bool)
    requires Consistent(s)
    ensures Consistent(StopAlert(s, android).0)
  {
  }

  /** Any interleaving of loop steps keeps a consistent session consistent. */
  lemma LoopsKeepConsistent(s: Session, sched: seq<LoopStep>, android: bool)
    requires Consistent(s)
    ensures Consistent(RunLoops(s, sched, android).0)
  {
    LoopsKeepFlags(s, sched, android);
    if !s.active && !s.stopEvent.isSet {
      HaltedLoopsAreSilent(s, sched, android);
      FlashFlagStaysDown(s, sched, android);
    }
  }

  lemma {:induction false} LoopsKeepFlags(s: Session, sched: seq<LoopStep>, android: bool)
    ensures RunLoops(s, sched, android).0.active == s.active
    ensures RunLoops(s, sched, android).0.stopEvent == s.stopEvent
    decreases |sched|
  {
    if sched != [] {
      var s1 := match sched[0]
        case FlashTick => FlashStep(s, android).0
        case SoundTick(i, play) => if i < |s.soundLoops| then SoundStep(s, i, play).0 else s;
      LoopsKeepFlags(s1, sched[1..], android);
    }
  }
}

=== FILE: json.dfy ===
/**
 The JSON values the listener exchanges, the Python dictionary look-ups the
 handlers perform on them, and the abstract outcome of decoding one received
 chunk (UTF-8 decoding followed by JSON parsing).
 */
module Json {

  datatype Option<+T> = None | Some(value: T)

  /** A decoded JSON value as Python's json module returns it. Integers and
      floats are distinct (json.loads("2") is an int, "2.0" a float); a float
      is kept as the exact decimal mant * 10^exp that was written. */
  datatype Json =
    | JNull
    | JBool(b: bool)
    | JInt(i: int)
    | JFloat(mant: int, exp: int)
    | JStr(s: string)
    | JArr(items: seq<Json>)
    | JObj(fields: map<string, Json>)

  /** What one received chunk decodes to: a JSON value, valid UTF-8 that is
      not JSON (json.JSONDecodeError), or bytes that are not UTF-8
      (UnicodeDecodeError, which the handlers treat as a generic error). */
  datatype DecodeResult =
    | Parsed(value: Json)
    | NotJson(text: string)
    | NotUtf8

  /** Python's dict.get(key, default) on a value known to be a dict. */
  function Get(fields: map<string, Json>, key: string, default: Json): (r: Json)
    ensures key in fields ==> r == fields[key]
    ensures key !in fields ==> r == default
  {
    if key in fields then fields[key] else default
  }

  /** Python's obj.get(key, default) on an arbitrary JSON value: anything that
      is not a dict has no get method and raises AttributeError (None). */
  function PyGet(obj: Json, key: string, default: Json): (r: Option<Json>)
    ensures r.Some? <==> obj.JObj?
    ensures obj.JObj? && key in obj.fields ==> r == Some(obj.fields[key])
    ensures obj.JObj? && key !in obj.fields ==> r == Some(default)
  {
    match obj
    case JObj(f) => Some(Get(f, key, default))
    case _ => None
  }

  /** The empty dict literal {} that the handlers use as a default. */
  const Empty: Json := JObj(map[])

  /** 10^n */
  function Pow10(n: nat): (r: nat)
    ensures r >= 1
  {
    if n == 0 then 1 else 10 * Pow10(n - 1)
  }

  /** Division truncating toward zero, as Python's int() does on a float. */
  function TruncDiv(a: int, d: nat): (r: int)
    requires d > 0
    ensures a >= 0 ==> r * d <= a < r * d + d
    ensures a < 0 ==> r * d - d < a <= r * d
    ensures a >= 0 ==> r >= 0
    ensures a < 0 ==> r <= 0
  {
    if a >= 0 then a / d else -((-a) / d)
  }

  /** int(duration * 1000) for a numeric JSON value (Python bools are the
      integers 0 and 1); None for values on which the multiplication or the
      conversion raises. Floats are treated as exact decimals. */
  function Millis(v: Json): (r: Option<int>)
    ensures v.JInt? ==> r == Some(v.i * 1000)
    ensures v.JBool? ==> r == Some(if v.b then 1000 else 0)
    ensures r.Some? <==> (v.JInt? || v.JBool? || v.JFloat?)
    ensures v.JFloat? && v.exp + 3 >= 0 ==> r == Some(v.mant * Pow10(v.exp + 3))
    ensures v.JFloat? && v.exp + 3 < 0 ==>
      var d := Pow10(-(v.exp + 3));
      && (v.mant >= 0 ==> r.value >= 0 && r.value * d <= v.mant < r.value * d + d)
      && (v.mant < 0 ==> r.value <= 0 && r.value * d - d < v.mant <= r.value * d)
  {
    match v
    case JInt(i) => Some(i * 1000)
    case JBool(b) => Some(if b then 1000 else 0)
    case JFloat(m, e) =>
      if e + 3 >= 0 then Some(m * Pow10(e + 3))
      else
        var d := Pow10(-(e + 3));
        var q := TruncDiv(m, d);
        Some(q)
    case _ => None
  }

  /** A number below zero, on which time.sleep raises ValueError. */
  predicate IsNegative(v: Json)
  {
    (v.JInt? && v.i < 0) || (v.JFloat? && v.mant < 0)
  }

  lemma MillisOfHalf()
    ensures Millis(JFloat(5, -1)) == Some(500)
    ensures Millis(JFloat(2, -1)) == Some(200)
  {
    assert Pow10(2) == 100;
  }

  /** The number of iterations of Python's range(n): ints and bools are
      accepted (negative counts give none), anything else raises TypeError. */
  function RangeCount(v: Json): (r: Option<nat>)
    ensures r.Some? <==> (v.JInt? || v.JBool?)
    ensures v.JInt? && v.i >= 0 ==> r == Some(v.i)
    ensures v.JInt? && v.i < 0 ==> r == Some(0)
    ensures v.JBool? ==> r == Some(if v.b then 1 else 0)
  {
    match v
    case JInt(i) => Some(if i >= 0 then i else 0)
    case JBool(b) => Some(if b then 1 else 0)
    case _ => None
  }
}

=== FILE: network.dfy ===
/**
 The generic TCP listener of the Android client (NetworkManager): the
 per-connection handler that tags, forwards and answers every received chunk,
 and the start/stop/accept lifecycle as a flag state machine. Every callback
 invocation is a Notify effect carrying a Notice; Render gives the dictionary
 the callback receives.
 */
module Network {
  import opened Json
  import ResponsePlanner

  /** The peer address (address[0], address[1]). */
  datatype Peer = Peer(ip: string, port: nat)

  /** What the callback is told about. */
  datatype Notice =
    | Delivered(fields: map<string, Json>, peer: Peer)  // a decoded JSON object, re-tagged with its source
    | RawData(text: string, peer: Peer)                  // a chunk that is text but not JSON
    | DataError(peer: Peer)                              // any other failure while handling a chunk
    | Connected(peer: Peer)
    | Disconnected(peer: Peer)
    | StartFailed
    | Stopped

  /** The peer a notice is about, if any. */
  function PeerOf(n: Notice): Option<Peer>
  {
    match n
    case Delivered(_, p) => Some(p)
    case RawData(_, p) => Some(p)
    case DataError(p) => Some(p)
    case Connected(p) => Some(p)
    case Disconnected(p) => Some(p)
    case _ => None
  }

  datatype Effect =
    | Notify(notice: Notice)
    | Reply            // the {"status": "ok", "message": "已处理"} response written to the peer
    | CloseClient
    | SpawnAcceptLoop
    | CloseListening
    | SpawnHandler(peer: Peer)

  /** One received chunk: how its bytes decode, and whether writing the
      response to it (if one is written) succeeds. */
  datatype NetChunk = NetChunk(payload: DecodeResult, sendOk: bool)

  // ---------------------------------------------------------------------
  // Rendering notices as the dictionaries the callback receives
  // ---------------------------------------------------------------------

  function DigitChar(d: nat): (c: char)
    requires d < 10
    ensures '0' <= c <= '9' && c as int - '0' as int == d
  {
    ('0' as int + d) as char
  }

  predicate AllDigits(s: string)
  {
    forall i :: 0 <= i < |s| ==> '0' <= s[i] <= '9'
  }

  /** str(n) for a non-negative integer. */
  function Decimal(n: nat): (r: string)
    ensures |r| >= 1 && AllDigits(r)
    ensures n >= 10 ==> |r| >= 2
  {
    if n < 10 then [DigitChar(n)] else Decimal(n / 10) + [DigitChar(n % 10)]
  }

  /** The value of a string of decimal digits: an independent reading of a
      port number back from its text. */
  function DecimalValue(s: string): (v: nat)
    requires AllDigits(s)
  {
    if |s| == 0 then 0 else DecimalValue(s[..|s| - 1]) * 10 + (s[|s| - 1] as int - '0' as int)
  }

  /** The port written into a connection message reads back as the port. */
  lemma {:induction false} DecimalRoundTrip(n: nat)
    ensures DecimalValue(Decimal(n)) == n
  {
    if n >= 10 {
      DecimalRoundTrip(n / 10);
      var s := Decimal(n);
      assert s[..|s| - 1] == Decimal(n / 10);
    }
  }

  /** {'ip': address[0], 'port': address[1]} */
  function SourceOf(p: Peer): (r: Json)
    ensures r.JObj? && r.fields.Keys == {"ip", "port"}
    ensures r.fields["ip"] == JStr(p.ip) && r.fields["port"] == JInt(p.port)
  {
    JObj(map["ip" := JStr(p.ip), "port" := JInt(p.port)])
  }

  function Address(p: Peer): string
  {
    p.ip + ":" + Decimal(p.port)
  }

  /** The error prefixes; the text of the exception that follows them is not
      modelled. */
  const DataErrorPrefix: string := "处理数据时出错: "
  const StartErrorPrefix: string := "启动服务失败: "

  function Render(n: Notice): (m: Json)
    ensures m.JObj?
    ensures !n.Delivered? ==> "type" in m.fields && "message" in m.fields
    ensures n.Delivered? ==> "source" in m.fields && m.fields["source"] == SourceOf(n.peer)
    ensures n.RawData? ==> m.fields == map["type" := JStr("raw_data"), "message" := JStr(n.text), "source" := SourceOf(n.peer)]
    ensures n.DataError? ==>
      && m.fields.Keys == {"type", "message", "source"}
      && m.fields["type"] == JStr("error") && m.fields["source"] == SourceOf(n.peer)
      && m.fields["message"].JStr? && DataErrorPrefix <= m.fields["message"].s
    ensures n.StartFailed? ==>
      && m.fields.Keys == {"type", "message"} && m.fields["type"] == JStr("error")
      && m.fields["message"].JStr? && StartErrorPrefix <= m.fields["message"].s
    ensures n.Connected? ==>
      && m.fields.Keys == {"type", "message"} && m.fields["type"] == JStr("connection")
      && m.fields["message"] == JStr("接受来自 " + Address(n.peer) + " 的连接")
    ensures n.Disconnected? ==>
      && m.fields.Keys == {"type", "message"} && m.fields["type"] == JStr("disconnection")
      && m.fields["message"] == JStr("客户端 " + Address(n.peer) + " 已断开连接")
    ensures n.Stopped? ==> m.fields == map["type" := JStr("info"), "message" := JStr("服务已停止")]
  {
    match n
    case Delivered(f, p) => JObj(f["source" := SourceOf(p)])
    case RawData(t, p) => JObj(map["type" := JStr("raw_data"), "message" := JStr(t), "source" := SourceOf(p)])
    case DataError(p) => JObj(map["type" := JStr("error"), "message" := JStr(DataErrorPrefix), "source" := SourceOf(p)])
    case Connected(p) =>
      JObj(map["type" := JStr("connection"), "message" := JStr("接受来自 " + Address(p) + " 的连接")])
    case Disconnected(p) =>
      JObj(map["type" := JStr("disconnection"), "message" := JStr("客户端 " + Address(p) + " 已断开连接")])
    case StartFailed => JObj(map["type" := JStr("error"), "message" := JStr(StartErrorPrefix)])
    case Stopped => JObj(map["type" := JStr("info"), "message" := JStr("服务已停止")])
  }

  /** A delivered message carries the peer's address as its source whatever
      source the sender wrote, and every other field exactly as received. */
  lemma DeliveredKeepsFields(f: map<string, Json>, p: Peer)
    ensures var m := Render(Delivered(f, p));
            && m.fields.Keys == f.Keys + {"source"}
            && m.fields["source"] == SourceOf(p)
            && forall k :: k in f && k != "source" ==> m.fields[k] == f[k]
  {
  }

  // ---------------------------------------------------------------------
  // handle_client
  // ---------------------------------------------------------------------

  /** The effects of one received chunk: an object is tagged, handed to the
      callback and answered (an error notice follows when the answer cannot
      be written); text that is not JSON becomes a raw_data notice; anything
      else (JSON that is not an object, so the source cannot be assigned,
      or bytes that are not UTF-8) becomes an error notice. */
  function ChunkEffects(p: Peer, c: NetChunk): (r: seq<Effect>)
    ensures 1 <= |r| <= 3
    ensures forall i :: 0 <= i < |r| ==> r[i].Notify? || r[i].Reply?
    ensures forall i :: 0 <= i < |r| && r[i].Notify? ==> PeerOf(r[i].notice) == Some(p)
    ensures c.payload.NotJson? ==> r == [Notify(RawData(c.payload.text, p))]
    ensures c.payload.NotUtf8? || (c.payload.Parsed? && !c.payload.value.JObj?) ==> r == [Notify(DataError(p))]
    ensures c.payload.Parsed? && c.payload.value.JObj? ==>
      |r| >= 2 && r[..2] == [Notify(Delivered(c.payload.value.fields, p)), Reply]
  {
    match c.payload
    case Parsed(v) =>
      if v.JObj? then
        [Notify(Delivered(v.fields, p)), Reply] + (if c.sendOk then [] else [Notify(DataError(p))])
      else
        [Notify(DataError(p))]
    case NotJson(t) => [Notify(RawData(t, p))]
    case NotUtf8 => [Notify(DataError(p))]
  }

  /** handle_client on a connection that delivers these chunks and then ends,
      whichever way: the peer closes (an empty read), a read fails, or the
      listener has stopped by the time the loop condition is checked. All
      three leave through the same finally block. */
  function HandleClient(p: Peer, chunks: seq<NetChunk>): (r: seq<Effect>)
    ensures |r| >= 2
    ensures r[|r| - 2] == CloseClient && r[|r| - 1] == Notify(Disconnected(p))
  {
    if |chunks| == 0 then [CloseClient, Notify(Disconnected(p))]
    else ChunkEffects(p, chunks[0]) + HandleClient(p, chunks[1..])
  }

  /** A classification of effects for counting them. */
  datatype Kind = KDelivered | KReply | KRaw | KError | KClose | KDisconnected | KConnected | KOther

  function KindOf(e: Effect): Kind
  {
    match e
    case Reply => KReply
    case CloseClient => KClose
    case Notify(n) =>
      (match n
       case Delivered(_, _) => KDelivered
       case RawData(_, _) => KRaw
       case DataError(_) => KError
       case StartFailed => KError
       case Connected(_) => KConnected
       case Disconnected(_) => KDisconnected
       case Stopped => KOther)
    case _ => KOther
  }

  /** How many effects of kind k a trace holds. */
  function Tally(e: seq<Effect>, k: Kind): nat
  {
    if |e| == 0 then 0 else (if KindOf(e[0]) == k then 1 else 0) + Tally(e[1..], k)
  }

  lemma {:induction false} TallyAppend(a: seq<Effect>, b: seq<Effect>, k: Kind)
    ensures Tally(a + b, k) == Tally(a, k) + Tally(b, k)
  {
    if |a| > 0 {
      assert (a + b)[1..] == a[1..] + b;
      TallyAppend(a[1..], b, k);
    } else {
      assert a + b == b;
    }
  }

  /** The independent account of what one chunk should produce, read off the
      documented behaviour per payload. */
  function Expected(c: NetChunk, k: Kind): (r: nat)
    ensures r <= 1
    ensures k != KDelivered && k != KReply && k != KRaw && k != KError ==> r == 0
  {
    var isObject := c.payload.Parsed? && c.payload.value.JObj?;
    match k
    case KDelivered => if isObject then 1 else 0
    case KReply => if isObject then 1 else 0
    case KRaw => if c.payload.NotJson? then 1 else 0
    case KError => if isObject then (if c.sendOk then 0 else 1) else (if c.payload.NotJson? then 0 else 1)
    case _ => 0
  }

  function ExpectedAll(chunks: seq<NetChunk>, k: Kind): nat
  {
    if |chunks| == 0 then 0 else Expected(chunks[0], k) + ExpectedAll(chunks[1..], k)
  }

  function Count(x: Effect, k: Kind): nat
  {
    if KindOf(x) == k then 1 else 0
  }

  lemma TallyOne(x: Effect, k: Kind)
    ensures Tally([x], k) == Count(x, k)
  {
    assert [x][1..] == [];
  }

  lemma TallyTwo(x: Effect, y: Effect, k: Kind)
    ensures Tally([x, y], k) == Count(x, k) + Count(y, k)
  {
    assert [x, y][1..] == [y];
    TallyOne(y, k);
  }

  lemma TallyShort(x: Effect, y: Effect, z: Effect, k: Kind)
    ensures Tally([x], k) == Count(x, k)
    ensures Tally([x, y], k) == Count(x, k) + Count(y, k)
    ensures Tally([x, y, z], k) == Count(x, k) + Count(y, k) + Count(z, k)
  {
    TallyOne(x, k);
    TallyTwo(x, y, k);
    assert [x, y, z][1..] == [y, z];
    TallyTwo(y, z, k);
  }

  lemma ChunkTally(p: Peer, c: NetChunk, k: Kind)
    ensures Tally(ChunkEffects(p, c), k) == Expected(c, k)
  {
    TallyShort(Notify(Delivered(map[], p)), Reply, Notify(DataError(p)), k);
    match c.payload
    case Parsed(v) =>
      if v.JObj? {
        TallyShort(Notify(Delivered(v.fields, p)), Reply, Notify(DataError(p)), k);
        if c.sendOk {
          assert ChunkEffects(p, c) == [Notify(Delivered(v.fields, p)), Reply];
        } else {
          assert ChunkEffects(p, c) == [Notify(Delivered(v.fields, p)), Reply, Notify(DataError(p))];
        }
      }
    case NotJson(t) =>
      TallyShort(Notify(RawData(t, p)), Reply, Reply, k);
    case NotUtf8 =>
  }

  /** The whole trace of one connection, counted: exactly one delivery and
      one ok response per JSON object, one raw_data notice per non-JSON
      chunk, one error notice per other chunk or failed response, and the
      socket closed exactly once with exactly one disconnection notice
      (which HandleClient's own contract puts last, right after the close). */
  lemma {:induction false} HandleClientTally(p: Peer, chunks: seq<NetChunk>, k: Kind)
    ensures Tally(HandleClient(p, chunks), k)
            == ExpectedAll(chunks, k) + (if k == KClose || k == KDisconnected then 1 else 0)
  {
    if |chunks| == 0 {
      TallyShort(CloseClient, Notify(Disconnected(p)), Reply, k);
    } else {
      HandleClientTally(p, chunks[1..], k);
      TallyAppend(ChunkEffects(p, chunks[0]), HandleClient(p, chunks[1..]), k);
      ChunkTally(p, chunks[0], k);
    }
  }

  /** Every notice in the trace is about peer p. */
  predicate AllAbout(r: seq<Effect>, p: Peer)
  {
    forall i :: 0 <= i < |r| && r[i].Notify? ==> PeerOf(r[i].notice) == Some(p)
  }

  /** Every notice a connection's handler raises is about that peer. */
  lemma {:induction false} HandleClientPeers(p: Peer, chunks: seq<NetChunk>)
    ensures AllAbout(HandleClient(p, chunks), p)
  {
    var r := HandleClient(p, chunks);
    if |chunks| > 0 {
      var head := ChunkEffects(p, chunks[0]);
      var rest := HandleClient(p, chunks[1..]);
      HandleClientPeers(p, chunks[1..]);
      assert r == head + rest;
      forall i | 0 <= i < |r| && r[i].Notify?
        ensures PeerOf(r[i].notice) == Some(p)
      {
        if i < |head| {
          assert r[i] == head[i];
        } else {
          assert r[i] == rest[i - |head|];
        }
      }
    }
  }

  /** Within one chunk the object reaches the callback before the answer is
      written, and a failed answer is reported right after it. */
  lemma ObjectChunkOrder(p: Peer, c: NetChunk)
    requires c.payload.Parsed? && c.payload.value.JObj?
    ensures var r := ChunkEffects(p, c);
            && r[0] == Notify(Delivered(c.payload.value.fields, p))
            && r[1] == Reply
            && (|r| == 3 <==> !c.sendOk)
            && (!c.sendOk ==> r[2] == Notify(DataError(p)))
  {
  }

  // ---------------------------------------------------------------------
  // The listener lifecycle
  // ---------------------------------------------------------------------

  /** self.socket is set, self.is_listening, self.client_handlers (one entry
      per accepted peer), and the number of accept_connections threads still
      running. */
  datatype Listener = Listener(hasSocket: bool, listening: bool, handlers: seq<Peer>, acceptLoops: nat)

  const Fresh: Listener := Listener(false, false, [], 0)

  /** A new NetworkManager is consistent. */
  lemma FreshConsistent()
    ensures Consistent(Fresh)
  {
  }

  /** Listening is only ever set together with the socket. */
  predicate Consistent(l: Listener)
  {
    && (l.listening ==> l.hasSocket)
    && (!l.hasSocket ==> l.handlers == [])
  }

  /** Where start_server gets to: everything succeeds, creating the socket
      fails, a later step (the socket option, bind or listen) fails after
      the new socket was already stored, or starting the accept thread fails
      after the listening flag was already raised. */
  datatype StartOutcome = Bound | SocketFailed | SetupFailed | ThreadFailed

  function StartServer(l: Listener, o: StartOutcome): (out: (Listener, bool, seq<Effect>))
    ensures out.1 <==> o == Bound
    ensures out.1 ==> out.0.listening && out.0.hasSocket && out.0.acceptLoops == l.acceptLoops + 1
                      && out.2 == [SpawnAcceptLoop]
    ensures !out.1 ==> out.0.acceptLoops == l.acceptLoops && out.2 == [Notify(StartFailed)]
    ensures !out.1 && o != ThreadFailed ==> out.0.listening == l.listening
    ensures out.0.handlers == l.handlers
    ensures o == SocketFailed ==> out.0 == l
    ensures o == SetupFailed ==> out.0 == l.(hasSocket := true)
    ensures o == ThreadFailed ==> out.0 == l.(hasSocket := true, listening := true)
    ensures Consistent(l) ==> Consistent(out.0)
  {
    match o
    case Bound => (l.(hasSocket := true, listening := true, acceptLoops := l.acceptLoops + 1), true, [SpawnAcceptLoop])
    case SocketFailed => (l, false, [Notify(StartFailed)])
    case SetupFailed => (l.(hasSocket := true), false, [Notify(StartFailed)])
    case ThreadFailed => (l.(hasSocket := true, listening := true), false, [Notify(StartFailed)])
  }

  function StopServer(l: Listener): (out: (Listener, seq<Effect>))
    ensures l.hasSocket ==> out.0 == Listener(false, false, [], l.acceptLoops)
                            && out.1 == [CloseListening, Notify(Stopped)]
    ensures !l.hasSocket ==> out == (l, [])
    ensures Consistent(l) ==> Consistent(out.0) && !out.0.listening && out.0.handlers == []
  {
    if l.hasSocket then (l.(hasSocket := false, listening := false, handlers := []), [CloseListening, Notify(Stopped)])
    else (l, [])
  }

  /** One pass of an accept_connections thread: it leaves when the flag is
      down or accept raises, and otherwise records and announces the peer. */
  datatype AcceptOutcome = Accepted(peer: Peer) | AcceptFailed

  function AcceptStep(l: Listener, o: AcceptOutcome): (out: (Listener, seq<Effect>))
    requires l.acceptLoops > 0
    ensures out.0.hasSocket == l.hasSocket && out.0.listening == l.listening
    ensures out.1 != [] <==> l.listening && o.Accepted?
    ensures out.1 != [] ==> out.0 == l.(handlers := l.handlers + [o.peer])
                            && out.1 == [SpawnHandler(o.peer), Notify(Connected(o.peer))]
    ensures out.1 == [] ==> out.0 == l.(acceptLoops := l.acceptLoops - 1)
  {
    if !l.listening then (l.(acceptLoops := l.acceptLoops - 1), [])
    else match o
      case Accepted(p) => (l.(handlers := l.handlers + [p]), [SpawnHandler(p), Notify(Connected(p))])
      case AcceptFailed => (l.(acceptLoops := l.acceptLoops - 1), [])
  }

  /** An interleaving of the listener's operations. */
  datatype Op = Start(outcome: StartOutcome) | Stop | AcceptPass(result: AcceptOutcome)

  /** One operation; an accept pass when no accept thread is running does
      nothing. */
  function ListenerStep(l: Listener, op: Op): (out: (Listener, seq<Effect>))
    ensures Consistent(l) ==> Consistent(out.0)
  {
    match op
    case Start(o) => var s := StartServer(l, o); (s.0, s.2)
    case Stop => StopServer(l)
    case AcceptPass(o) => if l.acceptLoops > 0 then AcceptStep(l, o) else (l, [])
  }

  /** Runs the operations in order. */
  function RunListener(l: Listener, ops: seq<Op>): (out: (Listener, seq<Effect>))
    ensures Consistent(l) ==> Consistent(out.0)
    decreases |ops|
  {
    if |ops| == 0 then (l, [])
    else
      var step := ListenerStep(l, ops[0]);
      var rest := RunListener(step.0, ops[1..]);
      (rest.0, step.1 + rest.1)
  }

  predicate NoStop(ops: seq<Op>)
  {
    forall i :: 0 <= i < |ops| ==> !ops[i].Stop?
  }

  /** A start that raises the listening flag: a successful one, or one whose
      accept thread fails to start. */
  predicate RaisesFlag(op: Op)
  {
    op == Start(Bound) || op == Start(ThreadFailed)
  }

  predicate NoFlagRaisingStart(ops: seq<Op>)
  {
    forall i :: 0 <= i < |ops| ==> !RaisesFlag(ops[i])
  }

  /** Short of a stop, a step only appends to client_handlers, one peer per
      connection notice. */
  lemma StepConnections(l: Listener, op: Op)
    requires !op.Stop?
    ensures var out := ListenerStep(l, op);
            && |out.0.handlers| == |l.handlers| + Tally(out.1, KConnected)
            && out.0.handlers[..|l.handlers|] == l.handlers
  {
    var out := ListenerStep(l, op);
    TallyOne(Notify(StartFailed), KConnected);
    TallyOne(SpawnAcceptLoop, KConnected);
    if op.AcceptPass? && op.result.Accepted? {
      TallyTwo(SpawnHandler(op.result.peer), Notify(Connected(op.result.peer)), KConnected);
    }
  }

  /** Until the next stop, client_handlers holds exactly the peers announced
      by connection notices, one handler thread spawned for each. */
  lemma {:induction false} HandlersMatchConnections(l: Listener, ops: seq<Op>)
    requires NoStop(ops)
    ensures var out := RunListener(l, ops);
            && |out.0.handlers| == |l.handlers| + Tally(out.1, KConnected)
            && out.0.handlers[..|l.handlers|] == l.handlers
    decreases |ops|
  {
    if |ops| > 0 {
      var step := ListenerStep(l, ops[0]);
      assert NoStop(ops[1..]) by {
        forall i | 0 <= i < |ops[1..]| ensures !ops[1..][i].Stop? {
          assert ops[1..][i] == ops[i + 1];
        }
      }
      StepConnections(l, ops[0]);
      HandlersMatchConnections(step.0, ops[1..]);
      var rest := RunListener(step.0, ops[1..]);
      TallyAppend(step.1, rest.1, KConnected);
      assert rest.0.handlers[..|l.handlers|] == step.0.handlers[..|step.0.handlers|][..|l.handlers|];
    }
  }

  /** A stopped listener stays stopped and announces no connection until a
      start raises the flag again. */
  lemma StoppedStep(l: Listener, op: Op)
    requires !l.listening && !RaisesFlag(op)
    ensures var out := ListenerStep(l, op);
            !out.0.listening && Tally(out.1, KConnected) == 0
  {
    TallyOne(Notify(StartFailed), KConnected);
    TallyTwo(CloseListening, Notify(Stopped), KConnected);
  }

  lemma {:induction false} StoppedStaysSilent(l: Listener, ops: seq<Op>)
    requires !l.listening && NoFlagRaisingStart(ops)
    ensures var out := RunListener(l, ops);
            !out.0.listening && Tally(out.1, KConnected) == 0
    decreases |ops|
  {
    if |ops| > 0 {
      var step := ListenerStep(l, ops[0]);
      assert NoFlagRaisingStart(ops[1..]) by {
        forall i | 0 <= i < |ops[1..]| ensures !RaisesFlag(ops[1..][i]) {
          assert ops[1..][i] == ops[i + 1];
        }
      }
      StoppedStep(l, ops[0]);
      StoppedStaysSilent(step.0, ops[1..]);
      TallyAppend(step.1, RunListener(step.0, ops[1..]).1, KConnected);
    }
  }

  /** A start whose accept thread fails reports failure but leaves the flag
      raised, so an accept thread still running from an earlier start
      keeps accepting and announcing connections. */
  lemma FailedStartKeepsAccepting(l: Listener, p: Peer)
    requires l.acceptLoops > 0
    ensures var started := StartServer(l, ThreadFailed);
            var pass := ListenerStep(started.0, AcceptPass(Accepted(p)));
            && !started.1
            && pass.1 == [SpawnHandler(p), Notify(Connected(p))]
  {
  }

  /** Starting then stopping returns the listener to having no socket, no
      flag and no handlers, and stopping again does nothing. */
  lemma StartStopStop(l: Listener)
    ensures var started := StartServer(l, Bound).0;
            var stopped := StopServer(started);
            && stopped.1 == [CloseListening, Notify(Stopped)]
            && stopped.0 == Fresh.(acceptLoops := l.acceptLoops + 1)
            && StopServer(stopped.0) == (stopped.0, [])
  {
  }

  // ---------------------------------------------------------------------
  // The listener's notices as input to the response handler
  // ---------------------------------------------------------------------

  /** If the response handler's handle_message is the registered callback:
      every notice the listener raises itself is only logged, and a
      forwarded message can only make handle_message raise when it is a
      command, because the listener always supplies the source the handler
      reads the sender's address from. */
  lemma NoticesReachResponder(n: Notice)
    ensures var r := ResponsePlanner.HandleMessage(Render(n));
            && (!n.Delivered? ==> r.Handled? && |r.actions| == 1 && r.actions[0].Log?)
            && (r.Raised? ==> n.Delivered? && Get(n.fields, "type", JNull) == JStr("command"))
  {
    var m := Render(n);
    assert ResponsePlanner.SourceIp(m.fields).Some? by {
      if "source" in m.fields {
        assert n.Delivered? || n.RawData? || n.DataError?;
        assert m.fields["source"] == SourceOf(n.peer);
      }
    }
    if n.Delivered? {
      assert Get(m.fields, "type", JNull) == Get(n.fields, "type", JNull);
    }
  }
}

=== FILE: response_planner.dfy ===
/**
 ResponseHandler of response_handler.py: the table from a message's type and
 alert level or command to a plan of sound, vibration, screen-flash and
 display actions, and the Android schedules play_sound and vibrate run for
 a requested duration and repeat count.
 */
module ResponsePlanner {
  import opened Json

  /** flash_screen colours: the three RGBA lists the alert levels use, or
      whatever a flash command supplied. */
  datatype Colour = Red | Orange | Blue | Given(value: Json)

  /** The log lines whose content the handler decides. */
  datatype LogLine =
    | InvalidFormat                                    // "收到无效消息格式"
    | SystemMessage(text: Json)                        // a connection/disconnection/error/info message
    | UnknownType(sourceIp: Json)                      // a message of unknown type and its sender
    | AlertLog(level: Json, sourceIp: Json, content: Json)
    | CommandLog(command: Json, sourceIp: Json)
    | UnknownCommand(command: Json)

  datatype Action =
    | Log(line: LogLine)
    | PlaySound(duration: Json, repeat: Json)          // play_sound(duration, repeat)
    | Vibrate(duration: Json, repeat: Json)            // vibrate(duration, repeat)
    | FlashScreen(colour: Colour, count: Json)         // flash_screen(color, count)
    | Display(text: Json, duration: Json)              // display_message(text, duration)

  /** What handle_message did: the actions it performed, and whether an
      exception (AttributeError from .get on a value that is not a dict)
      escaped after them. */
  datatype Outcome = Handled(actions: seq<Action>) | Raised(before: seq<Action>)

  const DefaultContent: Json := JStr("未指定内容")
  const DefaultLevel: Json := JStr("info")
  const DefaultSystemText: Json := JStr("系统消息")
  const UnknownIp: Json := JStr("unknown")
  const Half: Json := JFloat(5, -1)

  predicate IsActuator(a: Action)
  {
    !a.Log?
  }

  /** The types whose message is only logged. */
  predicate IsSystemType(t: Json)
  {
    t == JStr("connection") || t == JStr("disconnection") || t == JStr("error") || t == JStr("info")
  }

  /** message.get('source', {}).get('ip', 'unknown'); None when the source
      is not a dict. */
  function SourceIp(f: map<string, Json>): (r: Option<Json>)
    ensures "source" !in f ==> r == Some(UnknownIp)
    ensures "source" in f ==> (r.Some? <==> f["source"].JObj?)
    ensures "source" in f && f["source"].JObj? ==>
      r == Some(if "ip" in f["source"].fields then f["source"].fields["ip"] else UnknownIp)
  {
    PyGet(Get(f, "source", Empty), "ip", UnknownIp)
  }

  /** The fixed reaction to each alert level (durations in seconds). */
  function LevelPlan(level: Json): (plan: seq<Action>)
    ensures forall i :: 0 <= i < |plan| ==> IsActuator(plan[i])
    ensures level != JStr("critical") && level != JStr("warning") && level != JStr("info") ==> plan == []
  {
    if level == JStr("critical") then
      [PlaySound(JInt(3), JInt(3)), Vibrate(JInt(1), JInt(3)), FlashScreen(Red, JInt(5))]
    else if level == JStr("warning") then
      [PlaySound(JInt(1), JInt(2)), Vibrate(Half, JInt(2)), FlashScreen(Orange, JInt(3))]
    else if level == JStr("info") then
      [PlaySound(Half, JInt(1)), FlashScreen(Blue, JInt(2))]
    else
      []
  }

  /** handle_alert(message). */
  function HandleAlert(f: map<string, Json>): (r: Outcome)
    ensures r.Raised? <==> SourceIp(f).None?
    ensures r.Raised? ==> r.before == []
    ensures r.Handled? ==>
      && |r.actions| >= 1
      && r.actions[0] == Log(AlertLog(Get(f, "level", DefaultLevel), SourceIp(f).value, Get(f, "content", DefaultContent)))
      && r.actions[1..] == LevelPlan(Get(f, "level", DefaultLevel))
  {
    var content := Get(f, "content", DefaultContent);
    var level := Get(f, "level", DefaultLevel);
    match SourceIp(f)
    case None => Raised([])
    case Some(ip) => Handled([Log(AlertLog(level, ip, content))] + LevelPlan(level))
  }

  /** The commands handle_command carries out. */
  predicate IsKnownCommand(command: Json)
  {
    command == JStr("beep") || command == JStr("vibrate") || command == JStr("flash") || command == JStr("display")
  }

  /** The action a command asks for, from its params; None when params is
      not a dict and the command reads it. */
  function CommandAction(command: Json, params: Json): (r: Option<Action>)
    ensures r.None? <==> IsKnownCommand(command) && !params.JObj?
    ensures r.Some? ==> (IsActuator(r.value) <==> IsKnownCommand(command))
    ensures !IsKnownCommand(command) ==> r == Some(Log(UnknownCommand(command)))
  {
    if command == JStr("beep") || command == JStr("vibrate") then
      match (PyGet(params, "duration", JInt(1)), PyGet(params, "repeat", JInt(1)))
      case (Some(d), Some(n)) => Some(if command == JStr("beep") then PlaySound(d, n) else Vibrate(d, n))
      case _ => None
    else if command == JStr("flash") then
      match (PyGet(params, "count", JInt(3)), PyGet(params, "color", JNull))
      case (Some(c), Some(_)) =>
        Some(FlashScreen(if "color" in params.fields then Given(params.fields["color"]) else Red, c))
      case _ => None
    else if command == JStr("display") then
      match (PyGet(params, "text", JStr("")), PyGet(params, "duration", JInt(5)))
      case (Some(t), Some(d)) => Some(Display(t, d))
      case _ => None
    else
      Some(Log(UnknownCommand(command)))
  }

  /** handle_command(message): the command line is logged first, then the
      command is carried out. */
  function HandleCommand(f: map<string, Json>): (r: Outcome)
    ensures r.Raised? <==>
      SourceIp(f).None? || (IsKnownCommand(Get(f, "command", JNull)) && !Get(f, "params", Empty).JObj?)
    ensures SourceIp(f).None? ==> Performed(r) == []
    ensures SourceIp(f).Some? ==>
      |Performed(r)| >= 1 && Performed(r)[0] == Log(CommandLog(Get(f, "command", JNull), SourceIp(f).value))
    ensures |Performed(r)| <= 2
    ensures r.Handled? ==>
      |r.actions| == 2 && (IsActuator(r.actions[1]) <==> IsKnownCommand(Get(f, "command", JNull)))
    ensures r.Handled? ==>
      CommandAction(Get(f, "command", JNull), Get(f, "params", Empty)).Some? &&
      r.actions[1] == CommandAction(Get(f, "command", JNull), Get(f, "params", Empty)).value
  {
    var command := Get(f, "command", JNull);
    var params := Get(f, "params", Empty);
    match SourceIp(f)
    case None => Raised([])
    case Some(ip) =>
      var head := Log(CommandLog(command, ip));
      match CommandAction(command, params)
      case None => Raised([head])
      case Some(a) => Handled([head, a])
  }

  /** handle_message(message). */
  function HandleMessage(m: Json): (r: Outcome)
    ensures !m.JObj? ==> r == Handled([Log(InvalidFormat)])
  {
    match m
    case JObj(f) =>
      var t := Get(f, "type", JNull);
      if t == JStr("alert") then HandleAlert(f)
      else if t == JStr("command") then HandleCommand(f)
      else if IsSystemType(t) then Handled([Log(SystemMessage(Get(f, "message", DefaultSystemText)))])
      else
        (match SourceIp(f)
         case None => Raised([])
         case Some(ip) => Handled([Log(UnknownType(ip))]))
    case _ => Handled([Log(InvalidFormat)])
  }

  /** Every action performed, whether or not an exception followed. */
  function Performed(r: Outcome): seq<Action>
  {
    match r
    case Handled(a) => a
    case Raised(a) => a
  }

  /** Only alert and command messages can drive an actuator: a value that is
      not a dict, a system message or a message of unknown type only logs. */
  lemma OnlyAlertsAndCommandsAct(m: Json)
    requires !(m.JObj? && Get(m.fields, "type", JNull) in {JStr("alert"), JStr("command")})
    ensures forall i :: 0 <= i < |Performed(HandleMessage(m))| ==> !IsActuator(Performed(HandleMessage(m))[i])
  {
  }

  /** Type dispatch: alert messages go to handle_alert, command messages to
      handle_command, system messages log their text (default 系统消息), and
      anything else logs its sender's ip (default unknown), or raises when
      its source is not a dict. */
  lemma TypeDispatch(f: map<string, Json>)
    ensures Get(f, "type", JNull) == JStr("alert") ==> HandleMessage(JObj(f)) == HandleAlert(f)
    ensures Get(f, "type", JNull) == JStr("command") ==> HandleMessage(JObj(f)) == HandleCommand(f)
    ensures IsSystemType(Get(f, "type", JNull)) ==>
      HandleMessage(JObj(f)) == Handled([Log(SystemMessage(if "message" in f then f["message"] else DefaultSystemText))])
    ensures Get(f, "type", JNull) !in {JStr("alert"), JStr("command")} && !IsSystemType(Get(f, "type", JNull))
            && "source" !in f ==>
      HandleMessage(JObj(f)) == Handled([Log(UnknownType(UnknownIp))])
    ensures Get(f, "type", JNull) !in {JStr("alert"), JStr("command")} && !IsSystemType(Get(f, "type", JNull))
            && "source" in f && f["source"].JObj? ==>
      var src := f["source"].fields;
      HandleMessage(JObj(f)) == Handled([Log(UnknownType(if "ip" in src then src["ip"] else UnknownIp))])
    ensures Get(f, "type", JNull) !in {JStr("alert"), JStr("command")} && !IsSystemType(Get(f, "type", JNull))
            && "source" in f && !f["source"].JObj? ==>
      HandleMessage(JObj(f)) == Raised([])
  {
  }

  /** An alert with no content, level or source logs the defaults and runs
      the info plan: a half-second sound and two blue flashes. */
  lemma AlertDefaults(f: map<string, Json>)
    requires Get(f, "type", JNull) == JStr("alert")
    requires "content" !in f && "level" !in f && "source" !in f
    ensures HandleMessage(JObj(f)) ==
      Handled([Log(AlertLog(JStr("info"), JStr("unknown"), JStr("未指定内容"))),
               PlaySound(JFloat(5, -1), JInt(1)), FlashScreen(Blue, JInt(2))])
  {
  }

  /** The parameters of handle_command, key by key: each one given in the
      params dict is used as is, and each missing one takes its default (one
      second and one repetition, three red flashes, empty text for five
      seconds). */
  lemma CommandDefaults(params: map<string, Json>)
    ensures var d := if "duration" in params then params["duration"] else JInt(1);
            var n := if "repeat" in params then params["repeat"] else JInt(1);
            && CommandAction(JStr("beep"), JObj(params)) == Some(PlaySound(d, n))
            && CommandAction(JStr("vibrate"), JObj(params)) == Some(Vibrate(d, n))
    ensures var c := if "count" in params then params["count"] else JInt(3);
            var colour := if "color" in params then Given(params["color"]) else Red;
            CommandAction(JStr("flash"), JObj(params)) == Some(FlashScreen(colour, c))
    ensures var t := if "text" in params then params["text"] else JStr("");
            var d := if "duration" in params then params["duration"] else JInt(5);
            CommandAction(JStr("display"), JObj(params)) == Some(Display(t, d))
  {
  }

  // ---------------------------------------------------------------------
  // Android schedules of play_sound and vibrate

  /** One step of a background schedule. */
  datatype Step =
    | Tone(ms: int)       // toneGenerator.startTone(..., ms)
    | Buzz(ms: int)       // vibrator.vibrate(ms)
    | Hold(ms: int)       // time.sleep(duration)
    | Gap(ms: int)        // the pause between repetitions
    | Release             // toneGenerator.release()

  /** k iterations of: the pulse, a hold for the pulse's length, and the gap
      when more than one repetition was asked for. */
  function Iterations(pulse: Step, holdMs: int, gap: seq<Step>, k: nat): (r: seq<Step>)
  {
    if k == 0 then [] else [pulse, Hold(holdMs)] + gap + Iterations(pulse, holdMs, gap, k - 1)
  }

  /** The play_tone thread of play_sound(duration, repeat); None when it
      raises before its first tone (a repeat that is not an integer, or a
      duration that is not a number when at least one tone is due). A
      negative duration makes the first hold raise, so the thread ends after
      one tone without releasing the tone generator. */
  function ToneSchedule(duration: Json, repeat: Json): (r: Option<seq<Step>>)
    ensures RangeCount(repeat).None? ==> r.None?
    ensures RangeCount(repeat) == Some(0) ==> r == Some([Release])
    ensures RangeCount(repeat).Some? && RangeCount(repeat).value >= 1 && Millis(duration).None? ==> r.None?
    ensures r.Some? ==>
      |r.value| >= 1 &&
      (r.value[|r.value| - 1] == Release || (IsNegative(duration) && r.value == [Tone(Millis(duration).value)]))
  {
    match RangeCount(repeat)
    case None => None
    case Some(k) =>
      if k == 0 then Some([Release])
      else match Millis(duration)
        case None => None
        case Some(ms) =>
          if IsNegative(duration) then Some([Tone(ms)])
          else
            var gap := if repeat.JInt? && repeat.i > 1 then [Gap(500)] else [];
            Some(Iterations(Tone(ms), ms, gap, k) + [Release])
  }

  /** The vibrate_device thread of vibrate(duration, repeat); a negative
      duration ends it after the first vibration, as above. */
  function BuzzSchedule(duration: Json, repeat: Json): (r: Option<seq<Step>>)
    ensures RangeCount(repeat).None? ==> r.None?
    ensures RangeCount(repeat) == Some(0) ==> r == Some([])
    ensures RangeCount(repeat).Some? && RangeCount(repeat).value >= 1 && Millis(duration).None? ==> r.None?
    ensures r.Some? && RangeCount(repeat).value >= 1 && IsNegative(duration) ==>
      r.value == [Buzz(Millis(duration).value)]
  {
    match RangeCount(repeat)
    case None => None
    case Some(k) =>
      if k == 0 then Some([])
      else match Millis(duration)
        case None => None
        case Some(ms) =>
          if IsNegative(duration) then Some([Buzz(ms)])
          else
            var gap := if repeat.JInt? && repeat.i > 1 then [Gap(200)] else [];
            Some(Iterations(Buzz(ms), ms, gap, k))
  }

  /** How many times step x occurs in r. */
  function Occurrences(r: seq<Step>, x: Step): nat
  {
    if |r| == 0 then 0 else (if r[0] == x then 1 else 0) + Occurrences(r[1..], x)
  }

  lemma {:induction false} OccurrencesAppend(a: seq<Step>, b: seq<Step>, x: Step)
    ensures Occurrences(a + b, x) == Occurrences(a, x) + Occurrences(b, x)
  {
    if |a| > 0 {
      assert (a + b)[1..] == a[1..] + b;
      OccurrencesAppend(a[1..], b, x);
    } else {
      assert a + b == b;
    }
  }

  lemma OccurrencesOfOne(y: Step, x: Step)
    ensures Occurrences([y], x) == if x == y then 1 else 0
  {
    assert [y][1..] == [];
  }

  /** One iteration: the pulse, the hold, then the optional gap. */
  lemma OccurrencesInIteration(pulse: Step, holdMs: int, gap: seq<Step>, x: Step)
    requires |gap| <= 1
    ensures Occurrences([pulse, Hold(holdMs)] + gap, x)
            == (if x == pulse then 1 else 0) + (if x == Hold(holdMs) then 1 else 0)
               + (if |gap| == 1 && x == gap[0] then 1 else 0)
  {
    OccurrencesAppend([pulse], [Hold(holdMs)], x);
    OccurrencesAppend([pulse] + [Hold(holdMs)], gap, x);
    assert [pulse] + [Hold(holdMs)] == [pulse, Hold(holdMs)];
    OccurrencesOfOne(pulse, x);
    OccurrencesOfOne(Hold(holdMs), x);
    if |gap| == 1 {
      assert gap == [gap[0]];
      OccurrencesOfOne(gap[0], x);
    }
  }

  /** k iterations hold k times what one iteration holds. */
  lemma {:induction false} IterationsCount(pulse: Step, holdMs: int, gap: seq<Step>, k: nat, x: Step)
    ensures Occurrences(Iterations(pulse, holdMs, gap, k), x)
            == k * Occurrences([pulse, Hold(holdMs)] + gap, x)
  {
    if k > 0 {
      IterationsCount(pulse, holdMs, gap, k - 1, x);
      OccurrencesAppend([pulse, Hold(holdMs)] + gap, Iterations(pulse, holdMs, gap, k - 1), x);
    }
  }

  /** k > 0 iterations with a gap end with the gap. */
  lemma {:induction false} IterationsEndWithGap(pulse: Step, holdMs: int, g: Step, k: nat)
    requires k > 0
    ensures var r := Iterations(pulse, holdMs, [g], k); r[|r| - 1] == g
  {
    var rest := Iterations(pulse, holdMs, [g], k - 1);
    var r := [pulse, Hold(holdMs)] + [g] + rest;
    if k > 1 {
      IterationsEndWithGap(pulse, holdMs, g, k - 1);
      assert r[|r| - 1] == rest[|rest| - 1];
    }
  }

  /** Every step of the iterations is the pulse, its hold or the gap. */
  lemma {:induction false} IterationsSteps(pulse: Step, holdMs: int, gap: seq<Step>, k: nat)
    ensures forall i :: 0 <= i < |Iterations(pulse, holdMs, gap, k)| ==>
      Iterations(pulse, holdMs, gap, k)[i] == pulse
      || Iterations(pulse, holdMs, gap, k)[i] == Hold(holdMs)
      || Iterations(pulse, holdMs, gap, k)[i] in gap
  {
    if k > 0 {
      IterationsSteps(pulse, holdMs, gap, k - 1);
      var rest := Iterations(pulse, holdMs, gap, k - 1);
      var r := [pulse, Hold(holdMs)] + gap + rest;
      forall i | 0 <= i < |r|
        ensures r[i] == pulse || r[i] == Hold(holdMs) || r[i] in gap
      {
        if i >= 2 + |gap| {
          assert r[i] == rest[i - 2 - |gap|];
        } else if i >= 2 {
          assert r[i] == gap[i - 2];
        }
      }
    }
  }

  /** The tone schedule for a repeat that range() runs n >= 1 times (an
      int, or True) and a duration of ms. */
  lemma ToneScheduleUnfold(duration: Json, repeat: Json, n: nat, ms: int)
    requires RangeCount(repeat) == Some(n) && n >= 1 && Millis(duration) == Some(ms) && !IsNegative(duration)
    ensures ToneSchedule(duration, repeat)
            == Some(Iterations(Tone(ms), ms, if n > 1 then [Gap(500)] else [], n) + [Release])
  {
  }

  /** The vibration schedule for a repeat that range() runs n >= 1 times
      and a duration of ms. */
  lemma BuzzScheduleUnfold(duration: Json, repeat: Json, n: nat, ms: int)
    requires RangeCount(repeat) == Some(n) && n >= 1 && Millis(duration) == Some(ms) && !IsNegative(duration)
    ensures BuzzSchedule(duration, repeat)
            == Some(Iterations(Buzz(ms), ms, if n > 1 then [Gap(200)] else [], n))
  {
  }

  /** n iterations of a pulse of ms, with the gap g after each one exactly
      when n > 1: n pulses, all of ms; n gaps or none; a gap last if any. */
  lemma PulseTrain(pulse: Step, ms: int, g: Step, n: nat)
    requires n >= 1 && !pulse.Hold? && !g.Hold? && pulse != g
    ensures var r := Iterations(pulse, ms, if n > 1 then [g] else [], n);
            && Occurrences(r, pulse) == n
            && (forall i :: 0 <= i < |r| ==> r[i] == pulse || r[i] == Hold(ms) || r[i] == g)
            && Occurrences(r, g) == (if n > 1 then n else 0)
            && (n > 1 ==> r[|r| - 1] == g)
  {
    var gap := if n > 1 then [g] else [];
    IterationsCount(pulse, ms, gap, n, pulse);
    IterationsCount(pulse, ms, gap, n, g);
    OccurrencesInIteration(pulse, ms, gap, pulse);
    OccurrencesInIteration(pulse, ms, gap, g);
    IterationsSteps(pulse, ms, gap, n);
    if n > 1 {
      IterationsEndWithGap(pulse, ms, g, n);
    }
  }

  /** play_sound on Android with a repeat that range() runs n >= 1 times (an
      int n, or True for n = 1, which is not greater than 1) and a numeric
      duration of ms milliseconds issues exactly n tones, every one of ms
      (no other tone at all); a 0.5 s gap follows every tone, the last
      included, exactly when n > 1; the tone generator is released last. */
  lemma ToneScheduleShape(duration: Json, repeat: Json, n: nat, ms: int)
    requires RangeCount(repeat) == Some(n) && n >= 1 && Millis(duration) == Some(ms) && !IsNegative(duration)
    ensures var r := ToneSchedule(duration, repeat).value;
            && Occurrences(r, Tone(ms)) == n
            && (forall i :: 0 <= i < |r| && r[i].Tone? ==> r[i] == Tone(ms))
            && Occurrences(r, Gap(500)) == (if n > 1 then n else 0)
            && r[|r| - 1] == Release
            && (n > 1 ==> r[|r| - 2] == Gap(500))
  {
    ToneScheduleUnfold(duration, repeat, n, ms);
    ReleasedTrain(ms, n);
  }

  /** The tone train followed by the release of the tone generator. */
  lemma ReleasedTrain(ms: int, n: nat)
    requires n >= 1
    ensures var r := Iterations(Tone(ms), ms, if n > 1 then [Gap(500)] else [], n) + [Release];
            && Occurrences(r, Tone(ms)) == n
            && (forall i :: 0 <= i < |r| && r[i].Tone? ==> r[i] == Tone(ms))
            && Occurrences(r, Gap(500)) == (if n > 1 then n else 0)
            && r[|r| - 1] == Release
            && (n > 1 ==> r[|r| - 2] == Gap(500))
  {
    var it := Iterations(Tone(ms), ms, if n > 1 then [Gap(500)] else [], n);
    var r := it + [Release];
    PulseTrain(Tone(ms), ms, Gap(500), n);
    OccurrencesAppend(it, [Release], Tone(ms));
    OccurrencesAppend(it, [Release], Gap(500));
    OccurrencesOfOne(Release, Tone(ms));
    OccurrencesOfOne(Release, Gap(500));
    forall i | 0 <= i < |r| && r[i].Tone?
      ensures r[i] == Tone(ms)
    {
      if i < |it| {
        assert r[i] == it[i];
      }
    }
  }

  /** vibrate on Android with a repeat that range() runs n >= 1 times and a numeric
      duration of ms milliseconds issues exactly n vibrations, every one of
      ms, with a 0.2 s gap after each exactly when n > 1. */
  lemma BuzzScheduleShape(duration: Json, repeat: Json, n: nat, ms: int)
    requires RangeCount(repeat) == Some(n) && n >= 1 && Millis(duration) == Some(ms) && !IsNegative(duration)
    ensures var r := BuzzSchedule(duration, repeat).value;
            && Occurrences(r, Buzz(ms)) == n
            && (forall i :: 0 <= i < |r| && r[i].Buzz? ==> r[i] == Buzz(ms))
            && Occurrences(r, Gap(200)) == (if n > 1 then n else 0)
            && (n > 1 ==> r[|r| - 1] == Gap(200))
  {
    BuzzScheduleUnfold(duration, repeat, n, ms);
    PulseTrain(Buzz(ms), ms, Gap(200), n);
  }

  /** A negative duration plays or vibrates once, whatever the repeat, and
      a tone is never released. */
  lemma NegativeDurationStopsEarly(duration: Json, repeat: Json, n: nat, ms: int)
    requires RangeCount(repeat) == Some(n) && n >= 1 && Millis(duration) == Some(ms) && IsNegative(duration)
    ensures ToneSchedule(duration, repeat) == Some([Tone(ms)])
    ensures Release !in ToneSchedule(duration, repeat).value
    ensures BuzzSchedule(duration, repeat) == Some([Buzz(ms)])
  {
  }

  /** A repeat of zero or less, or False, runs no iteration at all. */
  lemma NonPositiveRepeatIsSilent(duration: Json, repeat: Json)
    requires RangeCount(repeat) == Some(0)
    ensures ToneSchedule(duration, repeat) == Some([Release])
    ensures BuzzSchedule(duration, repeat) == Some([])
  {
  }

  /** An alert of level critical plays three 3 s tones with a 0.5 s gap after
      each, vibrates three times for 1 s, and flashes red five times. */
  lemma CriticalSchedules()
    ensures var p := LevelPlan(JStr("critical"));
            && p == [PlaySound(JInt(3), JInt(3)), Vibrate(JInt(1), JInt(3)), FlashScreen(Red, JInt(5))]
            && Occurrences(ToneSchedule(p[0].duration, p[0].repeat).value, Tone(3000)) == 3
            && Occurrences(ToneSchedule(p[0].duration, p[0].repeat).value, Gap(500)) == 3
            && Occurrences(BuzzSchedule(p[1].duration, p[1].repeat).value, Buzz(1000)) == 3
            && p[2] == FlashScreen(Red, JInt(5))
  {
    var p := LevelPlan(JStr("critical"));
    assert p == [PlaySound(JInt(3), JInt(3)), Vibrate(JInt(1), JInt(3)), FlashScreen(Red, JInt(5))];
    ToneScheduleShape(JInt(3), JInt(3), 3, 3000);
    BuzzScheduleShape(JInt(1), JInt(3), 3, 1000);
  }

  /** An alert of level warning plays two 1 s tones, vibrates twice for
      0.5 s with a 0.2 s gap after each, and flashes orange three times. */
  lemma WarningSchedules()
    ensures var p := LevelPlan(JStr("warning"));
            && p == [PlaySound(JInt(1), JInt(2)), Vibrate(Half, JInt(2)), FlashScreen(Orange, JInt(3))]
            && Occurrences(ToneSchedule(p[0].duration, p[0].repeat).value, Tone(1000)) == 2
            && Occurrences(BuzzSchedule(p[1].duration, p[1].repeat).value, Buzz(500)) == 2
            && Occurrences(BuzzSchedule(p[1].duration, p[1].repeat).value, Gap(200)) == 2
            && p[2] == FlashScreen(Orange, JInt(3))
  {
    var p := LevelPlan(JStr("warning"));
    assert p == [PlaySound(JInt(1), JInt(2)), Vibrate(Half, JInt(2)), FlashScreen(Orange, JInt(3))];
    MillisOfHalf();
    ToneScheduleShape(JInt(1), JInt(2), 2, 1000);
    BuzzScheduleShape(Half, JInt(2), 2, 500);
  }

  /** An alert of level info plays one 0.5 s tone with no gap, flashes blue
      twice and never vibrates. */
  lemma InfoSchedules()
    ensures var p := LevelPlan(JStr("info"));
            && p == [PlaySound(Half, JInt(1)), FlashScreen(Blue, JInt(2))]
            && ToneSchedule(p[0].duration, p[0].repeat) == Some([Tone(500), Hold(500), Release])
            && p[1] == FlashScreen(Blue, JInt(2))
            && forall i :: 0 <= i < |p| ==> !p[i].Vibrate?
  {
    var p := LevelPlan(JStr("info"));
    assert p == [PlaySound(Half, JInt(1)), FlashScreen(Blue, JInt(2))];
    MillisOfHalf();
    ToneScheduleUnfold(Half, JInt(1), 1, 500);
    var it := Iterations(Tone(500), 500, [], 1);
    assert it == [Tone(500), Hold(500)] + [] + Iterations(Tone(500), 500, [], 0);
    assert it + [Release] == [Tone(500), Hold(500), Release];
  }
}
